=== FILE: README.md ===
# Grab-O-Scope GUI, modelled in Dafny

A model of the logic of the Grab-O-Scope desktop front end. The front end runs an
external `grab_o_scope.py` script that captures an oscilloscope screen. It stores the
captures in a directory and lets the operator step through them in time order. The
model covers five parts:

- **Capture order and navigation** (`navigation_sort.dfy`, `navigation.dfy`). This is
  `NavigationManager`. It lists the image files of the capture directory and sorts them
  stably by modification time. It derives the button state and label from the current
  image, and finds the previous and next image. A current image that was deleted or that
  lies outside the directory counts as stale. For a stale image the previous and next
  image are found by time.
- **The grabber** (`grabber.dfy`). This is `GrabberWrapper`. It builds the command line
  from the options and keeps the non-blank output lines. It decides the outcome of a
  run: the joined output, or the wrapped error message that names the exit code and
  ends with the last five lines.
- **The window** (`main_window.dfy`). This is `MainWindow` and `CaptureThread`: the
  capture directory and the timestamped file name, the signals of a capture thread, and
  the lock that lets one capture run at a time. It also covers the periodic refresh,
  arrow-key navigation, and what deleting or renaming the displayed image does.
- **Helpers** (`helpers.dfy`). The dotted-quad address check and the timestamp formatter.
- **Support modules**:
  - `wrappers.dfy`: `Option` and `Result`;
  - `strings.dfy`: Python's `isspace`, `rstrip`, `lower` and `join`;
  - `decimal.dfy`: decimal digits;
  - `paths.dfy`: POSIX `os.path.join`, `basename`, `dirname` and `splitext`.

Files, clocks and the external process are inputs to the model.

- A `FileSystem` is one snapshot. It holds the capture directory's path and its
  `os.listdir` listing, in listing order. Each listed entry says whether it is a regular
  file and gives its modification time. The snapshot also holds the modification times
  of existing paths outside the directory.
- A `Process` is either the raw output lines and exit code of the script, or the
  exception `Popen` raised.
- The window is a `Window` value. Each Qt slot is a function from the window and its
  inputs to the next window.

Captures are ordered by modification time alone. `list.sort(key=os.path.getmtime)` is
stable, so captures with equal times keep their `os.listdir` order.
`CaptureOrder.StableSortUnique` shows that every stable sort by time gives
`SortByMtime`.

Some of the code's behaviour may surprise a user:

- A current image that no longer exists enables both navigation buttons. Yet both
  queries then return nothing, because the missing image counts as time 0 for "previous"
  and as infinitely late for "next" (`Navigation.MissingCurrentEnablesDeadButtons`).
- Deleting an image that is not among the captures, while several captures exist,
  leaves the deleted path in the viewer.
- Deleting the last capture clears the viewer. The navigation manager still holds the
  deleted path.
- The arrow keys are not blocked while a capture runs. Navigating during a capture
  re-enables the navigation buttons that the capture disabled
  (`MainWindow.NavigationDuringCapture`).
- The delayed navigation update after a displayed capture is not guarded either. A
  capture started within half a second gets its navigation buttons re-enabled.
- A successful rename logs a second, failure line, and the navigation keeps the old
  path (see Findings). `MainWindow.Step` uses the rename as intended.

## Model

| member | source | states |
|---|---|---|
| CaptureOrder.GetSortedCaptures | grab-o-scope-gui/src/utils/navigation_manager.py:17-33 | A missing capture directory gives an empty list. Otherwise there is one path per image entry of the listing. |
| CaptureOrder.SortedCapturesMembers | grab-o-scope-gui/src/utils/navigation_manager.py:21-29 | A path is in the sorted list exactly when the directory exists and the path is the directory joined with a listed name. That name must end in `.png`, `.jpg`, `.jpeg` or `.bmp`, ignoring case, and name a regular file. |
| CaptureOrder.SortByMtime | grab-o-scope-gui/src/utils/navigation_manager.py:31-32 | The result is ordered by modification time and is a permutation of the input. Entries with the same time keep their input order. |
| CaptureOrder.StableSortUnique | grab-o-scope-gui/src/utils/navigation_manager.py:32 | Any arrangement that is ordered by time and keeps equal times in input order equals `SortByMtime`, so the model agrees with Python's stable sort. |
| CaptureOrder.SortedPathsDistinct | grab-o-scope-gui/src/utils/navigation_manager.py:24-29 | When the listing has distinct, non-empty, separator-free names, no path appears twice in the sorted list. |
| CaptureOrder.CaptureMtimeIsStat | grab-o-scope-gui/src/utils/navigation_manager.py:32 | The sort key of a capture is what `os.path.getmtime` reports for its path. |
| Navigation.IndexOf | grab-o-scope-gui/src/utils/navigation_manager.py:76 | `list.index` gives the first position that holds the value. |
| Navigation.GetNavigationState | grab-o-scope-gui/src/utils/navigation_manager.py:35-83 | A non-None argument replaces the stored current image and None keeps it. The count is the number of captures. A reported index points at the current image in the sorted list. |
| Navigation.NoCapturesState | grab-o-scope-gui/src/utils/navigation_manager.py:48-55 | With no captures both flags are off, the label is empty and the count is 0, whatever the current image. |
| Navigation.UnplacedState | grab-o-scope-gui/src/utils/navigation_manager.py:57-73 | With captures, a current image that is unset, empty, missing or not listed turns both flags on. The label shows the total and no index is reported. |
| Navigation.PlacedState | grab-o-scope-gui/src/utils/navigation_manager.py:75-83 | At position i of n, previous is on exactly when i > 0 and next exactly when i < n - 1. The label reads "Image i+1 of n" and the index is i. |
| Navigation.GetPreviousImage | grab-o-scope-gui/src/utils/navigation_manager.py:85-111 | Any image returned is one of the sorted captures. |
| Navigation.GetNextImage | grab-o-scope-gui/src/utils/navigation_manager.py:113-139 | Any image returned is one of the sorted captures. |
| Navigation.UnsetNeighbours | grab-o-scope-gui/src/utils/navigation_manager.py:85-118 | With no current image, previous is the newest capture and next the oldest. Both are None when there are no captures. |
| Navigation.PlacedNeighbours | grab-o-scope-gui/src/utils/navigation_manager.py:107-139 | With the current image at position i, previous is position i-1 and next is position i+1. Each is None at the matching end of the list. |
| Navigation.ScanOlderFindsLatestOlder | grab-o-scope-gui/src/utils/navigation_manager.py:99-105 | On a time-ordered list, the loop returns the newest capture strictly older than the bound. When the first capture is not older it returns its initial value. |
| Navigation.ScanNewerFindsEarliestNewer | grab-o-scope-gui/src/utils/navigation_manager.py:127-133 | Walking back from the newest, the loop returns the oldest capture strictly newer than the bound. When the newest is not newer it returns its initial value. |
| Navigation.StaleNeighbours | grab-o-scope-gui/src/utils/navigation_manager.py:96-133 | For an unlisted current image, previous is the newest capture older than it and next the oldest capture newer than it. Each is None exactly when no such capture exists. A missing file counts as time 0 for previous and as infinitely late for next. |
| Navigation.MissingCurrentHasNoNeighbours | grab-o-scope-gui/src/utils/navigation_manager.py:98-133 | A current image that does not exist has neither a previous nor a next image when no capture has a negative time. |
| Navigation.MissingCurrentEnablesDeadButtons | grab-o-scope-gui/src/utils/navigation_manager.py:57-133 | For a current image that does not exist, both flags are on, yet both queries return None. |
| Navigation.FlagsAgreeWithNeighbours | grab-o-scope-gui/src/utils/navigation_manager.py:35-139 | Unless the current image is stale, a flag is on exactly when its query returns an image. |
| Grabber.BuildCommand | grab-o-scope-gui/src/core/grabber_wrapper.py:32-47 | The command starts with the interpreter and the script and has between 2 and 9 words. |
| Grabber.BuildCommandRoundTrip | grab-o-scope-gui/src/core/grabber_wrapper.py:37-47 | The options follow the script in the fixed order `--name`, `--filename`, `--auto_view`, `--verbose`, `--trace`. A reader that accepts them only in that order reads back exactly the conveyed options: a non-empty name and file name, and the three flags. |
| Grabber.RetainLines | grab-o-scope-gui/src/core/grabber_wrapper.py:64-71 | Each kept line is non-empty and has no trailing whitespace. |
| Grabber.RetainOne | grab-o-scope-gui/src/core/grabber_wrapper.py:66-69 | A raw line is kept exactly when it is not blank, and then in its right-stripped form. |
| Grabber.RetainedAreStripped | grab-o-scope-gui/src/core/grabber_wrapper.py:66-69 | Each kept line is the right-stripped form of a raw line. Blank raw lines are dropped. |
| Grabber.RetainLinesAppend | grab-o-scope-gui/src/core/grabber_wrapper.py:66-71 | Filtering works line by line: the kept lines of a concatenation are the kept lines of each part, concatenated. |
| Grabber.RetainLinesIdempotent | grab-o-scope-gui/src/core/grabber_wrapper.py:66-69 | Filtering already-kept lines changes nothing. |
| Grabber.Tail | grab-o-scope-gui/src/core/grabber_wrapper.py:77 | The result is the last min(n, len) lines. |
| Grabber.RunGrabOScope | grab-o-scope-gui/src/core/grabber_wrapper.py:30-91 | The first callback is the "Running:" line, followed by the kept lines in order. The run succeeds exactly when the process started and exited with code 0, and its value is the kept lines joined by newlines. On failure the error message is the last callback, right after the kept lines. This holds also when reading the pipe raises part-way: the lines read so far are still called back, then the message is "Error running grab_o_scope: " and the exception. |
| Grabber.ExitFailureMessage | grab-o-scope-gui/src/core/grabber_wrapper.py:74-91 | A non-zero exit fails with the generic prefix, then "Process failed with code", the code, and the last at most five kept lines joined by newlines. |
| Grabber.CaptureFailureWrapped | grab-o-scope-gui/src/core/grabber_wrapper.py:82-91 | Every capture failure message starts with "Subprocess error: " or "Error running grab_o_scope: ". |
| Grabber.CaptureScreen | grab-o-scope-gui/src/core/grabber_wrapper.py:19-28 | A truthy file name replaces the option first. Success returns the option's file name, and a failure passes on the run's message. |
| Grabber.SetOptions | grab-o-scope-gui/src/core/grabber_wrapper.py:93-100 | Name and file name change only when the new value is truthy. The three flags are always overwritten. |
| Helpers.ValidateIpAddressIsDottedQuad | grab-o-scope-gui/src/utils/helpers.py:1-4 | An address is accepted exactly when it is four groups of 1 to 3 ASCII digits separated by dots, optionally followed by one newline. |
| Helpers.ValidatedIsDottedQuad | grab-o-scope-gui/src/utils/helpers.py:3-4 | Every accepted string has that shape. |
| Helpers.DottedQuadIsValidated | grab-o-scope-gui/src/utils/helpers.py:3-4 | Every string of that shape is accepted. |
| Helpers.AcceptsOutOfRangeGroups | grab-o-scope-gui/src/utils/helpers.py:3-4 | Groups are not range-checked: "999.999.999.999" is accepted. |
| Helpers.AcceptsFinalNewline | grab-o-scope-gui/src/utils/helpers.py:3-4 | `$` lets a single final newline through. |
| Helpers.RejectsFourDigitGroup | grab-o-scope-gui/src/utils/helpers.py:3-4 | A group of four digits is rejected. |
| Helpers.FormatTimestamp | grab-o-scope-gui/src/utils/helpers.py:6-7 | A valid date-time formats to 19 characters, with '-' at 4 and 7, ' ' at 10, and ':' at 13 and 16. |
| Helpers.FormatTimestampRoundTrip | grab-o-scope-gui/src/utils/helpers.py:7 | Parsing the formatted text gives back the date-time. |
| Helpers.FormatTimestampInjective | grab-o-scope-gui/src/utils/helpers.py:7 | Distinct valid date-times format to distinct texts. |
| MainWindow.RunCaptureThread | grab-o-scope-gui/src/gui/main_window.py:35-40 | A thread emits only `output` signals and then exactly one terminal signal, which comes last. It is `finished` exactly when the process exited with code 0, and `error` otherwise. |
| MainWindow.CaptureThreadSignals | grab-o-scope-gui/src/gui/main_window.py:26-40 | The `output` lines are the wrapper's callbacks. `finished` carries the configured file name and `error` the wrapped message. |
| MainWindow.GetCaptureDirectory | grab-o-scope-gui/src/gui/main_window.py:244-256 | A configured non-empty directory is used as is. |
| MainWindow.DefaultCaptureDirectory | grab-o-scope-gui/src/gui/main_window.py:249-253 | Without one, the directory is named `captures` and its parent is the application root. |
| MainWindow.GenerateTimestampedFilename | grab-o-scope-gui/src/gui/main_window.py:258-262 | The path is the capture directory joined directly with the capture name of the current time: the directory followed by the name, with one '/' between them when the directory does not already end in one. Its base name is the capture name. |
| MainWindow.CaptureName | grab-o-scope-gui/src/gui/main_window.py:260-262 | A base name has 27 characters: `capture_`, the date, '_' at position 16, the time and `.png`. |
| MainWindow.ParseCaptureNameOf | grab-o-scope-gui/src/gui/main_window.py:260-262 | A base name reads back to the exact date and time it was made from. |
| MainWindow.CaptureNameRoundTrip | grab-o-scope-gui/src/gui/main_window.py:258-262 | The base name of the generated path is `capture_<timestamp>.png`, and it reads back to the exact date and time. |
| MainWindow.CaptureNameIsImage | grab-o-scope-gui/src/gui/main_window.py:262 | Every base name has an image extension. |
| MainWindow.GeneratedCaptureIsImage | grab-o-scope-gui/src/gui/main_window.py:262 | The generated base name has an image extension. |
| MainWindow.GeneratedCaptureIsListed | grab-o-scope-gui/src/utils/navigation_manager.py:21-29 | Once the capture directory lists a regular file under the generated base name, the navigation lists the generated path among the captures. |
| MainWindow.InitialWindow | grab-o-scope-gui/src/gui/main_window.py:56-78 | The window starts idle with the capture button enabled, no loading overlay, and the capture lock consistent. Nothing is displayed. The grabber runs the given interpreter and script with the configured instrument name, no file name, auto_view off, and verbose and trace on. The navigation buttons and label are computed once for no current image: both buttons are on exactly when there are captures. The log holds the two start-up lines. |
| MainWindow.DisplayImage | grab-o-scope-gui/src/gui/image_viewer_widget.py:107-120 | Display succeeds only when the path exists and decodes, and then the viewer shows that path. A failed display leaves the viewer as it was. |
| MainWindow.UpdateNavigationButtons | grab-o-scope-gui/src/gui/main_window.py:331-341 | The buttons and the label take what `get_navigation_state` computes for the viewer's path, and the manager takes its update. Nothing else changes. |
| MainWindow.RequestCapture | grab-o-scope-gui/src/gui/main_window.py:266-287 | While a capture runs, the request only adds a log line. Otherwise the window runs, disables the capture and navigation buttons and shows the loading overlay. The options get the timestamped file name, and nothing else of the grabber changes. The capture lock is preserved. |
| MainWindow.Deliver | grab-o-scope-gui/src/gui/main_window.py:289-314 | `output` only logs its line. Both terminal signals leave the window idle with the capture button enabled, the loading overlay hidden, and the options kept. `finished` shows the capture when it can be displayed and logs the failure otherwise; the navigation buttons and label are kept until the delayed update. `error` sets the manager, buttons and label from `get_navigation_state` for the viewer's path and logs the message. |
| MainWindow.DeliverOutputs | grab-o-scope-gui/src/gui/main_window.py:283-287 | A run of `output` signals appends exactly their lines to the log and changes nothing else. |
| MainWindow.CaptureCycle | grab-o-scope-gui/src/gui/main_window.py:266-311 | After a request from idle and all of its thread's signals, the window is idle again with the capture button enabled, whatever the process did. After a successful run the new file is displayed when it can be. |
| MainWindow.Refresh | grab-o-scope-gui/src/gui/main_window.py:201-204 | While a capture runs the tick changes nothing. Otherwise the manager, the buttons and the label follow `get_navigation_state` for the viewer's path. The capture state, the viewer and the log are always kept. |
| MainWindow.RefreshIdempotent | grab-o-scope-gui/src/gui/main_window.py:201-204 | Two ticks over the same directory have the effect of one. |
| MainWindow.HandleNavigation | grab-o-scope-gui/src/gui/main_window.py:318-329 | A target that can be displayed becomes the viewer's and the manager's current image, it is one of the sorted captures, and the buttons and label follow `get_navigation_state` for it. Otherwise nothing changes. The capture state and the log are always kept. |
| MainWindow.NavigationDuringCapture | grab-o-scope-gui/src/gui/main_window.py:318-329 | The arrow keys work during a capture: moving onto a capture that has an older one enables the previous button while the window is still running. |
| MainWindow.NeighbourAfterDelete | grab-o-scope-gui/src/gui/main_window.py:422-432 | The view switches exactly when there is more than one capture and the file is among them. It moves to the next capture, or to the previous one when the file is the last. |
| MainWindow.NeighbourIsAnotherCapture | grab-o-scope-gui/src/gui/main_window.py:422-432 | In a well-formed listing the image switched to is a capture other than the deleted file. |
| MainWindow.DeleteCurrentImage | grab-o-scope-gui/src/gui/main_window.py:402-417 | With no image or no confirmation, nothing changes. |
| MainWindow.ConfirmedDelete | grab-o-scope-gui/src/gui/main_window.py:417-447 | A failed removal only logs, but the neighbour may already be shown. A successful one logs the base name and clears the viewer when at most one capture existed. The manager, buttons and label then follow `get_navigation_state` over the directory after the removal. The capture state is kept. |
| MainWindow.DeleteShowsNeighbour | grab-o-scope-gui/src/gui/main_window.py:417-443 | Deleting a displayed capture among several always picks a neighbour. When the neighbour can be displayed, it ends up on screen and differs from the deleted file. |
| MainWindow.PlanRename | grab-o-scope-gui/src/gui/main_window.py:455-481 | An empty or cancelled answer does nothing. A stripped name equal to the old stem is a no-op. The new file name is the stripped name plus the old extension, in the old directory. The rename is refused exactly when that path exists and differs from the old one, so it never overwrites another file. |
| MainWindow.RenameStaysInPlace | grab-o-scope-gui/src/gui/main_window.py:455-476 | A name without '/' keeps the file in its directory under the new file name. When the old file had an extension and the stripped name is not made of dots only, the new file has the same extension and the stripped name as its stem. |
| MainWindow.RenameCurrentImage | grab-o-scope-gui/src/gui/main_window.py:449-495 | A successful rename makes the new path the viewer's, logs the rename, then logs the overlay's `AttributeError` as a rename failure. The navigation and buttons never change. A failed rename only logs. Every other outcome changes nothing. |
| MainWindow.RenameCurrentImageIntended | grab-o-scope-gui/src/gui/main_window.py:484-491 | As the comments intend, a successful rename makes the new path the viewer's and the navigation's current image, and the buttons and label follow `get_navigation_state` for it over the directory after the rename. Only the rename is logged. The capture state is kept. |
| MainWindow.RenameReportsOverlayFailure | grab-o-scope-gui/src/gui/main_window.py:484-495 | After every successful rename, the code as written ends the log with the failure line and keeps the old navigation. The intended version logs one line fewer and its navigation follows the new path. |
| MainWindow.RenameAsWrittenKeepsCaptureLock | grab-o-scope-gui/src/gui/main_window.py:449-495 | The rename as written keeps the phase and the capture button, so it preserves the capture lock. |
| MainWindow.ClearImage | grab-o-scope-gui/src/gui/main_window.py:345-352 | The viewer and the navigation forget the current image. The buttons and label follow `get_navigation_state` for no current image, so both buttons are on exactly when there are captures. "Image cleared" is logged and the capture state is kept. |
| MainWindow.OpenImageFile | grab-o-scope-gui/src/gui/main_window.py:354-364 | A chosen file that can be displayed becomes the viewer's and the navigation's current image, and the buttons and label follow `get_navigation_state` for it. A cancelled or undisplayable choice changes nothing. The capture state and the log are kept. |
| MainWindow.ApplySettings | grab-o-scope-gui/src/gui/main_window.py:522-529 | An accepted dialog sets the instrument name to the configured one, switches `trace` on and logs the update. The file name and the other flags are kept. Nothing outside the options and the log changes. A cancelled dialog changes nothing. |
| MainWindow.ClearLog | grab-o-scope-gui/src/gui/main_window.py:238-240 | The log is emptied and nothing else changes. |
| MainWindow.Step | grab-o-scope-gui/src/gui/main_window.py:268-311 | Every event preserves the capture lock (running exactly when the capture button is disabled). Only a capture request starts a capture, and only a terminal signal of the thread ends one. The events include the delayed navigation update, which is not suppressed during a capture. |
| MainWindow.StepsKeepCaptureLock | grab-o-scope-gui/src/gui/main_window.py:268-311 | Any sequence of events from a consistent window keeps the capture lock. |

## Findings

| source | as written | input that shows it | evidently intended | confidence | as-written member | corrected member |
|---|---|---|---|---|---|---|
| grab-o-scope-gui/src/gui/main_window.py:490 | After `os.rename` succeeds, `self.image_viewer.filename_overlay.setText(...)` raises `AttributeError`, because the image viewer widget has no `filename_overlay`. The handler then logs "❌ Failed to rename image: …", and `update_navigation_buttons()` never runs. | Any rename that passes the checks and whose `os.rename` succeeds, e.g. `captures/a.png` renamed to `b` | Show the new name, log only the rename, and update the navigation to the new path | not executed | MainWindow.RenameCurrentImage (with MainWindow.RenameReportsOverlayFailure) | MainWindow.RenameCurrentImageIntended |

## Left out

- File-system I/O. `os.listdir`, `isfile`, `getmtime` and `exists` are read from a snapshot. `os.remove` and `os.rename` are not performed; their exceptions are inputs.
- The `os.makedirs` call in `get_capture_directory` is left out, and so is the exception it may raise. The model always returns the directory.
- Process execution. `Popen`, reading the pipe and `wait` are replaced by the `Process` input. It is one of three things: the raw lines and the exit code; the raw lines read before reading the pipe raised, with that exception's message; or the exception `Popen` raised.
- The path of `run_grab_o_scope` without an output callback. The window always installs one through `CaptureThread`.
- Qt. Button captions, message boxes, the save and clear buttons' enabled state, and the image pixels are left out. The file and settings dialogs are inputs: the chosen path, and whether the dialog was accepted together with the configured instrument name. `display_image` is modelled by its outcome: the path exists and decodes.
- Save-as, copy to clipboard, the context menu and the folder opener. They copy files, write the clipboard, show a menu or start the file manager, none of which is modelled. The log lines they add are left out too.
- The timing of the half-second `QTimer.singleShot` update after a displayed capture. It is the event `DelayedUpdate`, which runs `update_navigation_buttons` unguarded. The model lets it arrive at any time rather than only 500 ms after a displayed capture.
- Threads. A terminal signal is taken to arrive after the thread stopped running. The window where `isRunning()` is still true during the slot is not modelled.
- MainWindow.RunCaptureThread: emits an empty file name where the source would emit None. That cannot happen from the window, which always sets a file name first.
- MainWindow.Step: its rename event runs the corrected `MainWindow.RenameCurrentImageIntended`, not the code as written (see Findings). So `Step`, `Steps` and `StepsKeepCaptureLock` describe the window with that defect repaired. The as-written handler keeps the phase and the capture button too (`MainWindow.RenameAsWrittenKeepsCaptureLock`), so the capture-lock results hold for the program as written.
- MainWindow.RenameStaysInPlace: covers only new names without '/'. A name with '/' makes the source move the file into another directory.
- Navigation.FlagsAgreeWithNeighbours: excludes a stale current image, where flags and queries disagree (see `Navigation.MissingCurrentEnablesDeadButtons`).
- Navigation.MissingCurrentHasNoNeighbours: assumes no capture has a negative modification time. For such a capture "previous" would find something.
- Windows path rules. Paths follow POSIX `posixpath`.
- `str.lower` beyond ASCII. Only the suffix test uses it, and no non-ASCII character lowercases into the suffix letters.
- `%Y` for years below 1000. It is taken as four zero-padded digits, as the Python documentation gives it. glibc prints fewer digits.
- Non-string values for `capture_directory` in the configuration file. A missing key or JSON null is `None`.
- `config_manager.py`, the image viewer's scaling, and `show_message_box`. These are I/O and presentation only.

=== FILE: decimal.dfy ===
/** Decimal rendering of integers, as Python's `str(int)` and the `%Y`/`%m`/... directives produce it. */
module Decimal {
  import opened Wrappers

  predicate IsDigit(c: char) {
    '0' <= c <= '9'
  }

  predicate AllDigits(s: string) {
    forall i :: 0 <= i < |s| ==> IsDigit(s[i])
  }

  function DigitChar(d: nat): (c: char)
    requires d < 10
    ensures IsDigit(c) && c as int - '0' as int == d
  {
    (d + '0' as int) as char
  }

  /** The number a string of ASCII digits denotes, most significant digit first. */
  function Value(s: string): nat
    requires AllDigits(s)
  {
    if s == [] then 0 else Value(s[..|s| - 1]) * 10 + (s[|s| - 1] as int - '0' as int)
  }

  function Pow10(w: nat): (p: nat)
    ensures p >= 1
  {
    if w == 0 then 1 else 10 * Pow10(w - 1)
  }

  /** Python's `str(n)` for a non-negative integer: shortest digits, no leading zero. */
  function NatToString(n: nat): (s: string)
    ensures 1 <= |s|
    ensures AllDigits(s)
    ensures |s| > 1 ==> s[0] != '0'
    ensures Value(s) == n
  {
    if n < 10 then [DigitChar(n)] else NatToString(n / 10) + [DigitChar(n % 10)]
  }

  /** Python's `str(i)` for any integer. */
  function IntToString(i: int): (s: string)
    ensures i < 0 <==> (|s| > 0 && s[0] == '-')
    ensures i < 0 ==> AllDigits(s[1..]) && Value(s[1..]) == -i
    ensures i >= 0 ==> AllDigits(s) && Value(s) == i
  {
    if i < 0 then "-" + NatToString(-i) else NatToString(i)
  }

  /** `n` in exactly `width` digits with leading zeros, as `%04d`/`%02d` print it. */
  function Pad(n: nat, width: nat): (s: string)
    requires n < Pow10(width)
    ensures |s| == width
    ensures AllDigits(s)
    ensures Value(s) == n
  {
    if width == 0 then [] else Pad(n / 10, width - 1) + [DigitChar(n % 10)]
  }

  /** Reads exactly `width` leading digits: their value and what follows them. */
  function ReadDigits(s: string, width: nat): Option<(int, string)> {
    if width <= |s| && AllDigits(s[..width]) then Some((Value(s[..width]), s[width..])) else None
  }

  /** A padded field followed by anything reads back as its value and the rest. */
  lemma ReadPad(n: nat, width: nat, rest: string)
    requires n < Pow10(width)
    ensures ReadDigits(Pad(n, width) + rest, width) == Some((n, rest))
  {
    var s := Pad(n, width) + rest;
    assert s[..width] == Pad(n, width);
    assert s[width..] == rest;
  }
}

=== FILE: grabber.dfy ===
/**
 * `GrabberWrapper`: the command line for the external capture script, the handling
 * of its output lines, and the outcome of one run.
 */
module Grabber {
  import opened Wrappers
  import opened Strings
  import opened Decimal

  /** The `argparse.Namespace` the wrapper reads: instrument filter, output file and three flags. */
  datatype Options = Options(name: Option<string>, filename: Option<string>,
                             autoView: bool, verbose: bool, trace: bool)

  /**
   * The wrapper: the interpreter (`sys.executable`) and the script path it runs,
   * both fixed at construction, and the options it reads on every run.
   */
  datatype GrabberWrapper = GrabberWrapper(python: string, script: string, options: Options)

  function FlagArgs(o: Options): seq<string> {
    (if o.autoView then ["--auto_view"] else [])
    + (if o.verbose then ["--verbose"] else [])
    + (if o.trace then ["--trace"] else [])
  }

  function ValueArgs(flag: string, v: Option<string>): seq<string> {
    if Truthy(v) then [flag, v.value] else []
  }

  /** The arguments after the script: name, file name, then the flags. */
  function CommandArgs(o: Options): seq<string> {
    ValueArgs("--name", o.name) + (ValueArgs("--filename", o.filename) + FlagArgs(o))
  }

  /** The command `run_grab_o_scope` builds. */
  function BuildCommand(g: GrabberWrapper): (cmd: seq<string>)
    ensures 2 <= |cmd| <= 9
    ensures cmd[0] == g.python && cmd[1] == g.script
  {
    [g.python, g.script] + CommandArgs(g.options)
  }

  /** The options as the command line conveys them: a falsy name or file name is not passed. */
  function Conveyed(o: Options): Options {
    o.(name := if Truthy(o.name) then o.name else None,
       filename := if Truthy(o.filename) then o.filename else None)
  }

  /**
   * A reference reader for the arguments after the script. Each option may appear at
   * most once and only in the order `--name`, `--filename`, `--auto_view`, `--verbose`,
   * `--trace`; `next` is the first position in that order still open. `--name` and
   * `--filename` take the following argument as their value; anything else is rejected.
   */
  function ParseArgs(args: seq<string>, acc: Options, next: nat): Option<Options>
    decreases |args|
  {
    if args == [] then Some(acc)
    else if args[0] == "--name" && next == 0 && |args| >= 2 then
      ParseArgs(args[2..], acc.(name := Some(args[1])), 1)
    else if args[0] == "--filename" && next <= 1 && |args| >= 2 then
      ParseArgs(args[2..], acc.(filename := Some(args[1])), 2)
    else if args[0] == "--auto_view" && next <= 2 then ParseArgs(args[1..], acc.(autoView := true), 3)
    else if args[0] == "--verbose" && next <= 3 then ParseArgs(args[1..], acc.(verbose := true), 4)
    else if args[0] == "--trace" && next <= 4 then ParseArgs(args[1..], acc.(trace := true), 5)
    else None
  }

  const NoOptions := Options(None, None, false, false, false)

  lemma ParseFlags(o: Options, acc: Options, next: nat)
    requires next <= 2
    ensures ParseArgs(FlagArgs(o), acc, next)
      == Some(acc.(autoView := acc.autoView || o.autoView, verbose := acc.verbose || o.verbose,
                   trace := acc.trace || o.trace))
  {
    var a := if o.autoView then ["--auto_view"] else [];
    var v := if o.verbose then ["--verbose"] else [];
    var t := if o.trace then ["--trace"] else [];
    assert FlagArgs(o) == a + (v + t);
    var acc1 := acc.(autoView := acc.autoView || o.autoView);
    var acc2 := acc1.(verbose := acc.verbose || o.verbose);
    var acc3 := acc2.(trace := acc.trace || o.trace);
    var n1 := if o.autoView then 3 else next;
    var n2 := if o.verbose then 4 else n1;
    if o.autoView {
      assert (a + (v + t))[0] == "--auto_view";
      assert (a + (v + t))[1..] == v + t;
    } else {
      assert a + (v + t) == v + t;
    }
    assert ParseArgs(a + (v + t), acc, next) == ParseArgs(v + t, acc1, n1);
    if o.verbose {
      assert (v + t)[0] == "--verbose";
      assert (v + t)[1..] == t;
    } else {
      assert v + t == t;
    }
    assert ParseArgs(v + t, acc1, n1) == ParseArgs(t, acc2, n2);
    if o.trace {
      assert t[1..] == [];
    }
    assert ParseArgs(t, acc2, n2) == Some(acc3);
  }

  /**
   * The command carries exactly the conveyed options, each in its fixed place:
   * reading its arguments back in that order yields them and nothing else.
   */
  lemma {:induction false} BuildCommandRoundTrip(g: GrabberWrapper)
    ensures ParseArgs(BuildCommand(g)[2..], NoOptions, 0) == Some(Conveyed(g.options))
  {
    var o := g.options;
    var f := ValueArgs("--filename", o.filename);
    var rest := FlagArgs(o);
    assert BuildCommand(g)[2..] == CommandArgs(o);
    var acc1 := if Truthy(o.name) then NoOptions.(name := o.name) else NoOptions;
    var acc2 := if Truthy(o.filename) then acc1.(filename := o.filename) else acc1;
    var n1 := if Truthy(o.name) then 1 else 0;
    ParseValue("--name", o.name, f + rest, NoOptions, 0);
    ParseValue("--filename", o.filename, rest, acc1, n1);
    ParseFlags(o, acc2, if Truthy(o.filename) then 2 else n1);
  }

  /** A valued option and its argument are read off the front, setting that option when truthy. */
  lemma ParseValue(flag: string, v: Option<string>, rest: seq<string>, acc: Options, next: nat)
    requires (flag == "--name" && next == 0) || (flag == "--filename" && next <= 1)
    ensures ParseArgs(ValueArgs(flag, v) + rest, acc, next)
      == if !Truthy(v) then ParseArgs(rest, acc, next)
         else if flag == "--name" then ParseArgs(rest, acc.(name := v), 1)
         else ParseArgs(rest, acc.(filename := v), 2)
  {
    if Truthy(v) {
      assert (ValueArgs(flag, v) + rest)[2..] == rest;
    } else {
      assert ValueArgs(flag, v) + rest == rest;
    }
  }

  /** The reader refuses the options out of their order, so the command's order is the only one read back. */
  lemma ParseRejectsOutOfOrder()
    ensures ParseArgs(["--filename", "f.png", "--name", "scope"], NoOptions, 0) == None
    ensures ParseArgs(["--trace", "--verbose"], NoOptions, 0) == None
  {
    var a := ["--filename", "f.png", "--name", "scope"];
    assert a[2..] == ["--name", "scope"];
    var b := ["--trace", "--verbose"];
    assert b[1..] == ["--verbose"];
  }

  /** The first line the output callback receives: `Running: ` and the space-joined command. */
  function RunningLine(cmd: seq<string>): string {
    "Running: " + JoinWith(cmd, " ")
  }

  /** The lines kept from the process output: each right-stripped, empty ones dropped, order kept. */
  function RetainLines(raw: seq<string>): (kept: seq<string>)
    ensures |kept| <= |raw|
    ensures forall i :: 0 <= i < |kept| ==> kept[i] != "" && !IsSpace(kept[i][|kept[i]| - 1])
  {
    if raw == [] then []
    else
      var line := RStrip(raw[0]);
      (if line == "" then [] else [line]) + RetainLines(raw[1..])
  }

  /** A single raw line is kept exactly when it is not blank, and then right-stripped. */
  lemma RetainOne(x: string)
    ensures RetainLines([x]) == if RStrip(x) == "" then [] else [RStrip(x)]
  {
    assert [x][1..] == [];
  }

  /**
   * Retention works line by line: the lines kept from a stream are the lines kept
   * from any prefix followed by those kept from the rest, so each callback can be
   * issued as soon as its line is read.
   */
  lemma {:induction false} RetainLinesAppend(a: seq<string>, b: seq<string>)
    ensures RetainLines(a + b) == RetainLines(a) + RetainLines(b)
  {
    if a == [] {
      assert a + b == b;
    } else {
      assert (a + b)[0] == a[0];
      assert (a + b)[1..] == a[1..] + b;
      RetainLinesAppend(a[1..], b);
    }
  }

  /** Each kept line is the right-stripped form of a raw line. */
  lemma {:induction false} RetainedAreStripped(raw: seq<string>, i: nat)
    requires i < |RetainLines(raw)|
    ensures exists k :: 0 <= k < |raw| && RetainLines(raw)[i] == RStrip(raw[k])
  {
    var line := RStrip(raw[0]);
    if line == "" || i > 0 {
      var j := if line == "" then i else i - 1;
      RetainedAreStripped(raw[1..], j);
      var k :| 0 <= k < |raw[1..]| && RetainLines(raw[1..])[j] == RStrip(raw[1..][k]);
      assert raw[k + 1] == raw[1..][k];
    } else {
      assert RetainLines(raw)[0] == RStrip(raw[0]);
    }
  }

  /** Retaining is idempotent: already retained lines are kept unchanged. */
  lemma {:induction false} RetainLinesIdempotent(raw: seq<string>)
    ensures RetainLines(RetainLines(raw)) == RetainLines(raw)
  {
    if raw != [] {
      var line := RStrip(raw[0]);
      var tail := RetainLines(raw[1..]);
      RetainLinesIdempotent(raw[1..]);
      if line == "" {
        assert RetainLines(raw) == tail;
      } else {
        assert RetainLines(raw) == [line] + tail;
        RStripIdempotent(raw[0]);
        assert RetainLines([line]) == [line] by {
          assert [line][1..] == [];
        }
        RetainLinesAppend([line], tail);
      }
    }
  }

  /** At most the last `n` lines: Python's `lines[-n:]` for `n > 0`. */
  function Tail(lines: seq<string>, n: nat): (r: seq<string>)
    ensures |r| == if |lines| < n then |lines| else n
    ensures r == lines[|lines| - |r|..]
  {
    if |lines| <= n then lines else lines[|lines| - n..]
  }

  /**
   * The external process: it started, produced raw lines and exited with a code; or it
   * started and reading its output raised after `rawLines` (a decoding error, say); or
   * `Popen` itself raised.
   */
  datatype Process =
    | Exited(rawLines: seq<string>, exitCode: int)
    | Interrupted(rawLines: seq<string>, reason: string)
    | SpawnFailed(isSubprocessError: bool, reason: string)

  /** The raw lines read from the pipe before the run ended. */
  function ReadLines(p: Process): seq<string> {
    if p.SpawnFailed? then [] else p.rawLines
  }

  /** One run: the lines given to the output callback, and the returned text or the raised message. */
  datatype RunOutcome = RunOutcome(callbacks: seq<string>, result: Result<string, string>)

  const ErrorPrefix := "Error running grab_o_scope: "
  const SubprocessPrefix := "Subprocess error: "

  /** The message of the exception raised for a non-zero exit code, before it is wrapped. */
  function ExitFailure(code: int, kept: seq<string>): string {
    "Process failed with code " + IntToString(code) + ": " + JoinWith(Tail(kept, 5), "\n")
  }

  /**
   * `run_grab_o_scope()` with the output callback set. The non-zero-exit exception
   * is raised inside the `try`, so it is caught and wrapped like any other error.
   */
  function RunGrabOScope(g: GrabberWrapper, p: Process): (out: RunOutcome)
    ensures out.callbacks == [RunningLine(BuildCommand(g))] + RetainLines(ReadLines(p))
                             + (if out.result.Failure? then [out.result.error] else [])
    ensures out.result.Success? <==> p.Exited? && p.exitCode == 0
    ensures out.result.Success? ==> out.result.value == JoinWith(RetainLines(p.rawLines), "\n")
    ensures p.Interrupted? ==> out.result == Failure(ErrorPrefix + p.reason)
  {
    var running := RunningLine(BuildCommand(g));
    var kept := RetainLines(ReadLines(p));
    match p
    case Exited(raw, code) =>
      if code != 0 then
        var msg := ErrorPrefix + ExitFailure(code, kept);
        RunOutcome([running] + kept + [msg], Failure(msg))
      else
        RunOutcome([running] + kept + [], Success(JoinWith(kept, "\n")))
    case Interrupted(raw, reason) =>
      var msg := ErrorPrefix + reason;
      RunOutcome([running] + kept + [msg], Failure(msg))
    case SpawnFailed(isSubprocessError, reason) =>
      var msg := if isSubprocessError then SubprocessPrefix + reason else ErrorPrefix + reason;
      RunOutcome([running] + kept + [msg], Failure(msg))
  }

  /**
   * `capture_screen(filename)`: a truthy argument replaces the output file name;
   * a successful run returns the (possibly updated) option, a failed one re-raises.
   */
  function CaptureScreen(g: GrabberWrapper, filename: Option<string>, p: Process): (r: (GrabberWrapper, RunOutcome, Result<Option<string>, string>))
    ensures r.0 == g.(options := g.options.(filename := if Truthy(filename) then filename else g.options.filename))
    ensures r.1 == RunGrabOScope(r.0, p)
    ensures r.2.Success? <==> p.Exited? && p.exitCode == 0
    ensures r.2.Success? ==> r.2.value == r.0.options.filename
    ensures r.2.Failure? ==> r.2 == Failure(r.1.result.error)
  {
    var g' := if Truthy(filename) then g.(options := g.options.(filename := filename)) else g;
    var out := RunGrabOScope(g', p);
    var result := match out.result
      case Success(_) => Success(g'.options.filename)
      case Failure(e) => Failure(e);
    (g', out, result)
  }

  /** `set_options(...)`: name and file name change only when truthy; the three flags always change. */
  function SetOptions(o: Options, name: Option<string>, filename: Option<string>,
                      autoView: bool, verbose: bool, trace: bool): (r: Options)
    ensures r.name == (if Truthy(name) then name else o.name)
    ensures r.filename == (if Truthy(filename) then filename else o.filename)
    ensures r.autoView == autoView && r.verbose == verbose && r.trace == trace
  {
    var withName := if Truthy(name) then o.(name := name) else o;
    var withFile := if Truthy(filename) then withName.(filename := filename) else withName;
    withFile.(autoView := autoView, verbose := verbose, trace := trace)
  }

  /**
   * A non-zero exit code fails the run with a message that names the code and ends
   * with at most the last five retained lines, and that message is the last callback.
   */
  lemma ExitFailureMessage(g: GrabberWrapper, raw: seq<string>, code: int)
    requires code != 0
    ensures var out := RunGrabOScope(g, Exited(raw, code));
      var kept := RetainLines(raw);
      var last := kept[|kept| - (if |kept| < 5 then |kept| else 5)..];
      && out.result == Failure(ErrorPrefix + ("Process failed with code " + IntToString(code)
                                              + ": " + JoinWith(last, "\n")))
      && out.callbacks[|out.callbacks| - 1] == out.result.error
  {
    var kept := RetainLines(raw);
    assert Tail(kept, 5) == kept[|kept| - (if |kept| < 5 then |kept| else 5)..];
  }

  /** Every failure of a capture carries the wrapping prefix added by the `except` clauses. */
  lemma CaptureFailureWrapped(g: GrabberWrapper, filename: Option<string>, p: Process)
    ensures var result := CaptureScreen(g, filename, p).2;
      result.Failure? ==> ErrorPrefix <= result.error || SubprocessPrefix <= result.error
  {
    match p
    case Exited(raw, code) =>
      PrefixOfConcat(ErrorPrefix, ExitFailure(code, RetainLines(raw)));
    case Interrupted(raw, reason) =>
      PrefixOfConcat(ErrorPrefix, reason);
    case SpawnFailed(isSubprocessError, reason) =>
      PrefixOfConcat(ErrorPrefix, reason);
      PrefixOfConcat(SubprocessPrefix, reason);
  }

  lemma PrefixOfConcat(a: string, b: string)
    ensures a <= a + b
  {
    assert (a + b)[..|a|] == a;
  }
}

=== FILE: helpers.dfy ===
/** `utils/helpers.py`: the dotted-quad address check and the timestamp formatter. */
module Helpers {
  import opened Wrappers
  import opened Decimal
  import opened Strings

  /** A `datetime` value's fields, as `datetime.now()` would supply them. */
  datatype DateTime = DateTime(year: int, month: int, day: int, hour: int, minute: int, second: int)

  function DaysInMonth(year: int, month: int): int
    requires 1 <= month <= 12
  {
    if month == 2 then
      (if year % 4 == 0 && (year % 100 != 0 || year % 400 == 0) then 29 else 28)
    else if month == 4 || month == 6 || month == 9 || month == 11 then 30
    else 31
  }

  /** The range `datetime` enforces on its fields. */
  predicate ValidDateTime(dt: DateTime) {
    && 1 <= dt.year <= 9999
    && 1 <= dt.month <= 12
    && 1 <= dt.day <= DaysInMonth(dt.year, dt.month)
    && 0 <= dt.hour <= 23
    && 0 <= dt.minute <= 59
    && 0 <= dt.second <= 59
  }

  /** `format_timestamp(dt)`: `strftime("%Y-%m-%d %H:%M:%S")`, every field zero-padded. */
  function FormatTimestamp(dt: DateTime): (s: string)
    requires ValidDateTime(dt)
    ensures |s| == 19
    ensures s[4] == '-' && s[7] == '-' && s[10] == ' ' && s[13] == ':' && s[16] == ':'
  {
    Pad(dt.year, 4) + ("-" + (Pad(dt.month, 2) + ("-" + (Pad(dt.day, 2) + (" " +
      (Pad(dt.hour, 2) + (":" + (Pad(dt.minute, 2) + (":" + Pad(dt.second, 2))))))))))
  }

  /** Reads a `"YYYY-MM-DD HH:MM:SS"` string back into its fields. */
  function ParseTimestamp(s: string): Option<DateTime> {
    var year :- ReadDigits(s, 4);
    var r1 :- ReadLiteral(year.1, "-");
    var month :- ReadDigits(r1, 2);
    var r2 :- ReadLiteral(month.1, "-");
    var day :- ReadDigits(r2, 2);
    var r3 :- ReadLiteral(day.1, " ");
    var hour :- ReadDigits(r3, 2);
    var r4 :- ReadLiteral(hour.1, ":");
    var minute :- ReadDigits(r4, 2);
    var r5 :- ReadLiteral(minute.1, ":");
    var second :- ReadDigits(r5, 2);
    if second.1 == "" then Some(DateTime(year.0, month.0, day.0, hour.0, minute.0, second.0)) else None
  }

  /** The formatted timestamp determines the date and time it was made from. */
  lemma FormatTimestampRoundTrip(dt: DateTime)
    requires ValidDateTime(dt)
    ensures ParseTimestamp(FormatTimestamp(dt)) == Some(dt)
  {
    var se := Pad(dt.second, 2);
    var r5 := se;
    var mi := Pad(dt.minute, 2) + (":" + r5);
    var r4 := mi;
    var h := Pad(dt.hour, 2) + (":" + r4);
    var r3 := h;
    var d := Pad(dt.day, 2) + (" " + r3);
    var r2 := d;
    var mo := Pad(dt.month, 2) + ("-" + r2);
    var r1 := mo;
    ReadPad(dt.year, 4, "-" + r1);
    ReadLiteralOf("-", r1);
    ReadPad(dt.month, 2, "-" + r2);
    ReadLiteralOf("-", r2);
    ReadPad(dt.day, 2, " " + r3);
    ReadLiteralOf(" ", r3);
    ReadPad(dt.hour, 2, ":" + r4);
    ReadLiteralOf(":", r4);
    ReadPad(dt.minute, 2, ":" + r5);
    ReadLiteralOf(":", r5);
    assert se == se + "";
    ReadPad(dt.second, 2, "");
  }

  /** Distinct valid date-times format to distinct strings. */
  lemma FormatTimestampInjective(a: DateTime, b: DateTime)
    requires ValidDateTime(a) && ValidDateTime(b)
    requires FormatTimestamp(a) == FormatTimestamp(b)
    ensures a == b
  {
    FormatTimestampRoundTrip(a);
    FormatTimestampRoundTrip(b);
  }

  /** The length of the run of ASCII digits `[0-9]` that starts at index `p` of `s`. */
  function DigitRunFrom(s: string, p: nat): (n: nat)
    requires p <= |s|
    ensures p + n <= |s|
    ensures forall x :: p <= x < p + n ==> IsDigit(s[x])
    ensures p + n == |s| || !IsDigit(s[p + n])
    decreases |s| - p
  {
    if p == |s| || !IsDigit(s[p]) then 0 else 1 + DigitRunFrom(s, p + 1)
  }

  /**
   * The regular expression `^(?:[0-9]{1,3}\.){3}[0-9]{1,3}$` under `re.match`, from index
   * `p` with `k` dotted groups still to come. A group can only end where its digit run
   * ends, so backtracking never finds another match; `$` also matches before a single
   * final newline.
   */
  predicate MatchFrom(s: string, p: nat, k: nat)
    requires p <= |s|
    decreases k
  {
    var e := p + DigitRunFrom(s, p);
    && 1 <= e - p <= 3
    && if k == 0 then e == |s| || (e + 1 == |s| && s[e] == '\n')
       else e < |s| && s[e] == '.' && MatchFrom(s, e + 1, k - 1)
  }

  /** `validate_ip_address(ip)`. */
  predicate ValidateIpAddress(ip: string) {
    MatchFrom(ip, 0, 3)
  }

  /** `s[a..b]` is one to three ASCII digits; there is no range check. */
  ghost predicate GroupAt(s: string, a: int, b: int) {
    && 0 <= a && b <= |s| && 1 <= b - a <= 3
    && forall x :: a <= x < b ==> IsDigit(s[x])
  }

  /**
   * The first `len` characters of `s` are four digit groups whose separating dots stand
   * at indices `i < j < k`.
   */
  ghost predicate GroupsAt(s: string, len: int, i: int, j: int, k: int) {
    && len <= |s|
    && GroupAt(s, 0, i) && GroupAt(s, i + 1, j) && GroupAt(s, j + 1, k) && GroupAt(s, k + 1, len)
    && s[i] == '.' && s[j] == '.' && s[k] == '.'
  }

  /** The first `len` characters of `s` are four digit groups separated by dots. */
  ghost predicate QuadWithin(s: string, len: int) {
    exists i, j, k :: GroupsAt(s, len, i, j, k)
  }

  /** Four digit groups separated by dots, optionally followed by one newline. */
  ghost predicate DottedQuad(s: string) {
    || QuadWithin(s, |s|)
    || (|s| > 0 && s[|s| - 1] == '\n' && QuadWithin(s, |s| - 1))
  }

  lemma DigitRunEnds(s: string, p: nat, e: nat)
    requires p <= e <= |s|
    requires forall x :: p <= x < e ==> IsDigit(s[x])
    requires e == |s| || !IsDigit(s[e])
    ensures DigitRunFrom(s, p) == e - p
  {
  }

  /** Every accepted string is four digit groups separated by dots, with at most one final newline. */
  lemma ValidatedIsDottedQuad(s: string)
    requires ValidateIpAddress(s)
    ensures DottedQuad(s)
  {
    var i := DigitRunFrom(s, 0);
    var j := i + 1 + DigitRunFrom(s, i + 1);
    var k := j + 1 + DigitRunFrom(s, j + 1);
    var e := k + 1 + DigitRunFrom(s, k + 1);
    assert GroupAt(s, 0, i) && s[i] == '.';
    assert GroupAt(s, i + 1, j) && s[j] == '.';
    assert GroupAt(s, j + 1, k) && s[k] == '.';
    assert GroupAt(s, k + 1, e);
    assert MatchFrom(s, k + 1, 0);
    if e == |s| {
      assert GroupsAt(s, |s|, i, j, k);
    } else {
      assert e == |s| - 1 && s[|s| - 1] == '\n';
      assert GroupsAt(s, |s| - 1, i, j, k);
    }
  }

  /** A digit group at `[p, e)` followed by a dot and a match of the rest. */
  lemma MatchDotted(s: string, p: nat, e: nat, k: nat)
    requires GroupAt(s, p, e) && e < |s| && s[e] == '.' && k > 0
    requires MatchFrom(s, e + 1, k - 1)
    ensures MatchFrom(s, p, k)
  {
    DigitRunEnds(s, p, e);
  }

  /** A digit group at `[p, e)` that ends the string or precedes its only newline. */
  lemma MatchLast(s: string, p: nat, e: nat)
    requires GroupAt(s, p, e)
    requires e == |s| || (e == |s| - 1 && s[e] == '\n')
    ensures MatchFrom(s, p, 0)
  {
    DigitRunEnds(s, p, e);
  }

  /** The two groups after the second dot match. */
  lemma GroupsMatchLastTwo(s: string, len: int, i: int, j: int, k: int)
    requires GroupsAt(s, len, i, j, k)
    requires len == |s| || (len == |s| - 1 && s[len] == '\n')
    ensures MatchFrom(s, j + 1, 1)
  {
    MatchLast(s, k + 1, len);
    MatchDotted(s, j + 1, k, 1);
  }

  /** The three groups after the first dot match. */
  lemma GroupsMatchAfterFirst(s: string, len: int, i: int, j: int, k: int)
    requires GroupsAt(s, len, i, j, k)
    requires len == |s| || (len == |s| - 1 && s[len] == '\n')
    ensures MatchFrom(s, i + 1, 2)
  {
    GroupsMatchLastTwo(s, len, i, j, k);
    assert GroupAt(s, i + 1, j) && j < |s| && s[j] == '.';
    MatchDotted(s, i + 1, j, 2);
  }

  lemma GroupsMatch(s: string, len: int, i: int, j: int, k: int)
    requires GroupsAt(s, len, i, j, k)
    requires len == |s| || (len == |s| - 1 && s[len] == '\n')
    ensures ValidateIpAddress(s)
  {
    GroupsMatchAfterFirst(s, len, i, j, k);
    assert GroupAt(s, 0, i) && i < |s| && s[i] == '.';
    MatchDotted(s, 0, i, 3);
  }

  /** Four digit groups separated by dots, with or without one final newline, are accepted. */
  lemma DottedQuadIsValidated(s: string)
    requires DottedQuad(s)
    ensures ValidateIpAddress(s)
  {
    if QuadWithin(s, |s|) {
      var i, j, k :| GroupsAt(s, |s|, i, j, k);
      GroupsMatch(s, |s|, i, j, k);
    } else {
      var len := |s| - 1;
      assert QuadWithin(s, len);
      var i, j, k :| GroupsAt(s, len, i, j, k);
      GroupsMatch(s, len, i, j, k);
    }
  }

  /**
   * The check accepts exactly four groups of one to three ASCII digits separated by
   * dots, with nothing before or after except one optional final newline.
   */
  lemma ValidateIpAddressIsDottedQuad(s: string)
    ensures ValidateIpAddress(s) <==> DottedQuad(s)
  {
    if ValidateIpAddress(s) {
      ValidatedIsDottedQuad(s);
    }
    if DottedQuad(s) {
      DottedQuadIsValidated(s);
    }
  }

  /** Groups are not range-checked: `999.999.999.999` is accepted. */
  lemma AcceptsOutOfRangeGroups()
    ensures ValidateIpAddress("999.999.999.999")
  {
    GroupsMatch("999.999.999.999", 15, 3, 7, 11);
  }

  /** `$` lets one final newline through. */
  lemma AcceptsFinalNewline()
    ensures ValidateIpAddress("10.0.0.1\n")
  {
    GroupsMatch("10.0.0.1\n", 8, 2, 4, 6);
  }

  /** A group of four digits is rejected. */
  lemma RejectsFourDigitGroup()
    ensures !ValidateIpAddress("1000.0.0.1")
  {
    DigitRunEnds("1000.0.0.1", 0, 4);
  }
}

=== FILE: main_window.dfy ===
/**
 * `MainWindow` and `CaptureThread`: where a capture is written, the signals a capture
 * thread emits and how the window reacts to them, the lock that keeps one capture
 * running at a time, the periodic navigation refresh, and what deleting or renaming
 * the displayed image does.
 *
 * Qt widgets are reduced to the state the logic reads back: whether the capture button
 * is enabled, the path the image viewer shows, the navigation buttons and label, and
 * the log. Every file-system query is answered by a `FileSystem` snapshot.
 */
module MainWindow {
  import opened Wrappers
  import opened Strings
  import opened Decimal
  import Paths
  import opened CaptureOrder
  import opened Navigation
  import opened Grabber
  import opened Helpers

  // ---------------------------------------------------------------------------
  // Capture directory and file name
  // ---------------------------------------------------------------------------

  /** The application root: three directory levels above the window's source file. */
  function AppRoot(moduleFile: string): string {
    Paths.Dirname(Paths.Dirname(Paths.Dirname(moduleFile)))
  }

  const CapturesDir := "captures"

  /**
   * `get_capture_directory()`: the configured `capture_directory`, or `<root>/captures`
   * when the key is missing, null or empty. `configured` is the looked-up value.
   */
  function GetCaptureDirectory(configured: Option<string>, moduleFile: string): (dir: string)
    ensures Truthy(configured) ==> dir == configured.value
  {
    if Truthy(configured) then configured.value else Paths.Join(AppRoot(moduleFile), CapturesDir)
  }

  lemma CapturesDirHasNoSep()
    ensures Paths.NoSep(CapturesDir)
  {
    forall i | 0 <= i < |CapturesDir|
      ensures CapturesDir[i] != Paths.Sep
    {
    }
  }

  /** `captures` joined onto the directory of `p` is a child of that directory. */
  lemma CapturesUnder(p: string)
    ensures Paths.Basename(Paths.Join(Paths.Dirname(p), CapturesDir)) == CapturesDir
    ensures Paths.Dirname(Paths.Join(Paths.Dirname(p), CapturesDir)) == Paths.Dirname(p)
  {
    CapturesDirHasNoSep();
    Paths.BasenameOfJoin(Paths.Dirname(p), CapturesDir);
    Paths.DirnameOfJoin(p, CapturesDir);
  }

  /** Without a configured directory the captures go to the `captures` folder directly under the root. */
  lemma DefaultCaptureDirectory(configured: Option<string>, moduleFile: string)
    requires !Truthy(configured)
    ensures Paths.Basename(GetCaptureDirectory(configured, moduleFile)) == CapturesDir
    ensures Paths.Dirname(GetCaptureDirectory(configured, moduleFile)) == AppRoot(moduleFile)
  {
    var q := Paths.Dirname(Paths.Dirname(moduleFile));
    assert AppRoot(moduleFile) == Paths.Dirname(q);
    assert GetCaptureDirectory(configured, moduleFile) == Paths.Join(Paths.Dirname(q), CapturesDir);
    CapturesUnder(q);
  }

  const CapturePrefix := "capture_"
  const CaptureSuffix := ".png"

  /**
   * The base name `capture_<timestamp>.png`, where the timestamp is
   * `strftime("%Y%m%d_%H%M%S")`: every field zero-padded, date and time joined by `_`.
   */
  function CaptureName(dt: DateTime): (name: string)
    requires ValidDateTime(dt)
    ensures |name| == 27
    ensures name[..8] == CapturePrefix && name[16] == '_'
  {
    CapturePrefix + (Pad(dt.year, 4) + (Pad(dt.month, 2) + (Pad(dt.day, 2) + ("_" + ClockAndSuffix(dt)))))
  }

  /** The `%H%M%S` part of a capture name and the extension after it. */
  function ClockAndSuffix(dt: DateTime): string
    requires ValidDateTime(dt)
  {
    Pad(dt.hour, 2) + (Pad(dt.minute, 2) + (Pad(dt.second, 2) + CaptureSuffix))
  }

  /**
   * `generate_timestamped_filename()` at the time `now`: a file directly inside the
   * capture directory whose base name is the capture name of `now`.
   */
  function GenerateTimestampedFilename(configured: Option<string>, moduleFile: string, now: DateTime): (path: string)
    requires ValidDateTime(now)
    ensures Paths.Basename(path) == CaptureName(now)
    ensures var dir := GetCaptureDirectory(configured, moduleFile);
      path == dir + CaptureName(now) || path == dir + "/" + CaptureName(now)
  {
    var dir := GetCaptureDirectory(configured, moduleFile);
    var name := CaptureName(now);
    CaptureNameHasNoSep(now);
    Paths.BasenameOfJoin(dir, name);
    assert name[0] == 'c';
    Paths.Join(dir, name)
  }

  /** Reads a capture base name back into the date and time it was made at. */
  function ParseCaptureName(name: string): Option<DateTime> {
    var r0 :- ReadLiteral(name, CapturePrefix);
    var year :- ReadDigits(r0, 4);
    var month :- ReadDigits(year.1, 2);
    var day :- ReadDigits(month.1, 2);
    var r1 :- ReadLiteral(day.1, "_");
    var hour :- ReadDigits(r1, 2);
    var minute :- ReadDigits(hour.1, 2);
    var second :- ReadDigits(minute.1, 2);
    if second.1 == CaptureSuffix then Some(DateTime(year.0, month.0, day.0, hour.0, minute.0, second.0))
    else None
  }

  lemma PadHasNoSep(n: nat, width: nat)
    requires n < Pow10(width)
    ensures Paths.NoSep(Pad(n, width))
  {
    var p := Pad(n, width);
    forall i | 0 <= i < |p|
      ensures p[i] != Paths.Sep
    {
      assert IsDigit(p[i]);
    }
  }

  lemma ClockAndSuffixHasNoSep(dt: DateTime)
    requires ValidDateTime(dt)
    ensures Paths.NoSep(ClockAndSuffix(dt))
  {
    var t6 := Pad(dt.second, 2) + CaptureSuffix;
    var t5 := Pad(dt.minute, 2) + t6;
    PadHasNoSep(dt.second, 2);
    PadHasNoSep(dt.minute, 2);
    PadHasNoSep(dt.hour, 2);
    assert Paths.NoSep(CaptureSuffix);
    Paths.NoSepAppend(Pad(dt.second, 2), CaptureSuffix);
    Paths.NoSepAppend(Pad(dt.minute, 2), t6);
    Paths.NoSepAppend(Pad(dt.hour, 2), t5);
  }

  lemma CaptureNameHasNoSep(dt: DateTime)
    requires ValidDateTime(dt)
    ensures Paths.NoSep(CaptureName(dt))
  {
    var t4 := ClockAndSuffix(dt);
    var t3 := "_" + t4;
    var t2 := Pad(dt.day, 2) + t3;
    var t1 := Pad(dt.month, 2) + t2;
    var t0 := Pad(dt.year, 4) + t1;
    ClockAndSuffixHasNoSep(dt);
    PadHasNoSep(dt.day, 2);
    PadHasNoSep(dt.month, 2);
    PadHasNoSep(dt.year, 4);
    assert Paths.NoSep("_") && Paths.NoSep(CapturePrefix);
    Paths.NoSepAppend("_", t4);
    Paths.NoSepAppend(Pad(dt.day, 2), t3);
    Paths.NoSepAppend(Pad(dt.month, 2), t2);
    Paths.NoSepAppend(Pad(dt.year, 4), t1);
    Paths.NoSepAppend(CapturePrefix, t0);
  }

  /** A capture base name reads back as the date and time it was made at. */
  lemma ParseCaptureNameOf(dt: DateTime)
    requires ValidDateTime(dt)
    ensures ParseCaptureName(CaptureName(dt)) == Some(dt)
  {
    var t6 := Pad(dt.second, 2) + CaptureSuffix;
    var t5 := Pad(dt.minute, 2) + t6;
    var t4 := ClockAndSuffix(dt);
    assert t4 == Pad(dt.hour, 2) + t5;
    var t3 := "_" + t4;
    var t2 := Pad(dt.day, 2) + t3;
    var t1 := Pad(dt.month, 2) + t2;
    var t0 := Pad(dt.year, 4) + t1;
    ReadLiteralOf(CapturePrefix, t0);
    ReadPad(dt.year, 4, t1);
    ReadPad(dt.month, 2, t2);
    ReadPad(dt.day, 2, t3);
    ReadLiteralOf("_", t4);
    ReadPad(dt.hour, 2, t5);
    ReadPad(dt.minute, 2, t6);
    ReadPad(dt.second, 2, CaptureSuffix);
  }

  /** The base name of a generated capture path gives back the time it was generated at. */
  lemma CaptureNameRoundTrip(configured: Option<string>, moduleFile: string, now: DateTime)
    requires ValidDateTime(now)
    ensures ParseCaptureName(Paths.Basename(GenerateTimestampedFilename(configured, moduleFile, now))) == Some(now)
  {
    CaptureNameHasNoSep(now);
    Paths.BasenameOfJoin(GetCaptureDirectory(configured, moduleFile), CaptureName(now));
    ParseCaptureNameOf(now);
  }

  lemma CaptureNameEndsWithSuffix(dt: DateTime)
    requires ValidDateTime(dt)
    ensures EndsWith(CaptureName(dt), CaptureSuffix)
  {
    var t6 := Pad(dt.second, 2) + CaptureSuffix;
    var t5 := Pad(dt.minute, 2) + t6;
    var t4 := ClockAndSuffix(dt);
    assert t4 == Pad(dt.hour, 2) + t5;
    var t3 := "_" + t4;
    var t2 := Pad(dt.day, 2) + t3;
    var t1 := Pad(dt.month, 2) + t2;
    var t0 := Pad(dt.year, 4) + t1;
    assert EndsWith(CaptureSuffix, CaptureSuffix) by {
      assert CaptureSuffix[0..] == CaptureSuffix;
    }
    EndsWithAppend(Pad(dt.second, 2), CaptureSuffix, CaptureSuffix);
    EndsWithAppend(Pad(dt.minute, 2), t6, CaptureSuffix);
    EndsWithAppend(Pad(dt.hour, 2), t5, CaptureSuffix);
    EndsWithAppend("_", t4, CaptureSuffix);
    EndsWithAppend(Pad(dt.day, 2), t3, CaptureSuffix);
    EndsWithAppend(Pad(dt.month, 2), t2, CaptureSuffix);
    EndsWithAppend(Pad(dt.year, 4), t1, CaptureSuffix);
    EndsWithAppend(CapturePrefix, t0, CaptureSuffix);
  }

  lemma LowerKeepsCaptureSuffix()
    ensures Lower(CaptureSuffix) == CaptureSuffix
  {
    var l := Lower(CaptureSuffix);
    assert l[0] == LowerChar('.') && l[1] == LowerChar('p') && l[2] == LowerChar('n') && l[3] == LowerChar('g');
  }

  /** Every capture base name has an image extension. */
  lemma CaptureNameIsImage(dt: DateTime)
    requires ValidDateTime(dt)
    ensures HasImageExtension(CaptureName(dt))
  {
    CaptureNameEndsWithSuffix(dt);
    LowerKeepsCaptureSuffix();
    LowerKeepsSuffix(CaptureName(dt), CaptureSuffix);
  }

  /** A generated capture has an image extension. */
  lemma GeneratedCaptureIsImage(configured: Option<string>, moduleFile: string, now: DateTime)
    requires ValidDateTime(now)
    ensures HasImageExtension(Paths.Basename(GenerateTimestampedFilename(configured, moduleFile, now)))
  {
    CaptureNameHasNoSep(now);
    Paths.BasenameOfJoin(GetCaptureDirectory(configured, moduleFile), CaptureName(now));
    CaptureNameIsImage(now);
  }

  /**
   * Once the script has written the generated file into the capture directory, the
   * navigation lists it among the captures.
   */
  lemma GeneratedCaptureIsListed(configured: Option<string>, moduleFile: string, now: DateTime,
                                 fs: FileSystem, i: nat)
    requires ValidDateTime(now)
    requires fs.dir == GetCaptureDirectory(configured, moduleFile)
    requires fs.listing.Some? && i < |fs.listing.value|
    requires fs.listing.value[i].name == CaptureName(now) && fs.listing.value[i].isFile
    ensures GenerateTimestampedFilename(configured, moduleFile, now) in GetSortedCaptures(fs)
  {
    CaptureNameIsImage(now);
    assert IsImage(fs.listing.value[i]);
    SortedCapturesMembers(fs, GenerateTimestampedFilename(configured, moduleFile, now));
  }

  // ---------------------------------------------------------------------------
  // The capture thread
  // ---------------------------------------------------------------------------

  /** The three signals of `CaptureThread`: `output(line)`, `finished(filename)`, `error(message)`. */
  datatype Signal = Output(line: string) | Finished(filename: string) | Error(message: string)

  function Outputs(lines: seq<string>): (sigs: seq<Signal>)
    ensures |sigs| == |lines|
  {
    seq(|lines|, i requires 0 <= i < |lines| => Output(lines[i]))
  }

  /**
   * `CaptureThread.run()`: every line the wrapper passes to its output callback is emitted
   * as `output`, then `finished` with the returned file name, or `error` with the message
   * of the exception `capture_screen()` raised.
   */
  function RunCaptureThread(g: GrabberWrapper, p: Process): (sigs: seq<Signal>)
    ensures |sigs| >= 2
    ensures forall i :: 0 <= i < |sigs| - 1 ==> sigs[i].Output?
    ensures !sigs[|sigs| - 1].Output?
    ensures sigs[|sigs| - 1].Finished? <==> p.Exited? && p.exitCode == 0
  {
    var r := CaptureScreen(g, None, p);
    var last := match r.2
      case Success(f) => Finished(f.GetOr(""))
      case Failure(e) => Error(e);
    Outputs(r.1.callbacks) + [last]
  }

  /**
   * The lines of a thread's `output` signals are the wrapper's output callbacks, and its
   * terminal signal carries the configured file name or the wrapped error message.
   */
  lemma CaptureThreadSignals(g: GrabberWrapper, p: Process)
    ensures var sigs := RunCaptureThread(g, p);
      var out := RunGrabOScope(g, p);
      && |sigs| == |out.callbacks| + 1
      && (forall i :: 0 <= i < |out.callbacks| ==> sigs[i] == Output(out.callbacks[i]))
      && (out.result.Success? ==> sigs[|sigs| - 1] == Finished(g.options.filename.GetOr("")))
      && (out.result.Failure? ==> sigs[|sigs| - 1] == Error(out.result.error))
  {
    var r := CaptureScreen(g, None, p);
    assert r.0 == g;
    var out := RunGrabOScope(g, p);
    assert r.1 == out;
    var sigs := RunCaptureThread(g, p);
    assert sigs[..|out.callbacks|] == Outputs(out.callbacks);
  }

  // ---------------------------------------------------------------------------
  // The window
  // ---------------------------------------------------------------------------

  /** Whether `capture_thread` exists and `isRunning()`. */
  datatype Phase = Idle | Running

  /**
   * The parts of `MainWindow` the capture and navigation logic reads and writes. The
   * grabber's options are the window's `self.options`.
   */
  datatype Window = Window(
    phase: Phase,
    captureEnabled: bool,
    loading: bool,
    grabber: GrabberWrapper,
    viewerImage: Option<string>,
    nav: Manager,
    prevEnabled: bool,
    nextEnabled: bool,
    navInfo: string,
    log: seq<string>)

  /** The capture lock: the capture button is disabled exactly while a capture thread runs. */
  predicate CaptureLock(w: Window) {
    w.phase == Running <==> !w.captureEnabled
  }

  /** `display_image(path)` succeeds when the path exists and `QPixmap` can decode it. */
  predicate Displays(fs: FileSystem, decodable: set<string>, path: string) {
    Stat(fs, path).Some? && path in decodable
  }

  /**
   * `display_image(path)` on a viewer showing `shown`: the success flag and the viewer's
   * path afterwards. Only a successful display changes what the viewer shows.
   */
  function DisplayImage(shown: Option<string>, fs: FileSystem, decodable: set<string>, path: string): (r: (bool, Option<string>))
    ensures r.0 ==> Stat(fs, path).Some? && path in decodable && r.1 == Some(path)
    ensures !r.0 ==> r.1 == shown && (Stat(fs, path).None? || path !in decodable)
  {
    if Stat(fs, path).None? then (false, shown)
    else if path !in decodable then (false, shown)
    else (true, Some(path))
  }

  /**
   * The manager, both navigation buttons and the label of `r` are what
   * `get_navigation_state(arg)` computes from the manager `m` over `fs`.
   */
  predicate ShowsNavigation(r: Window, m: Manager, fs: FileSystem, arg: Option<string>) {
    var st := GetNavigationState(m, fs, arg);
    && r.nav == st.0 && r.prevEnabled == st.1.prevEnabled && r.nextEnabled == st.1.nextEnabled
    && r.navInfo == st.1.infoText
  }

  /** `r` keeps the capture state of `w`: the phase, the capture button, the loading overlay and the options. */
  predicate KeepsCapture(r: Window, w: Window) {
    r.phase == w.phase && r.captureEnabled == w.captureEnabled && r.loading == w.loading && r.grabber == w.grabber
  }

  /** `update_navigation_buttons()`: the viewer's path is handed to `get_navigation_state`. */
  function UpdateNavigationButtons(w: Window, fs: FileSystem): (r: Window)
    ensures KeepsCapture(r, w) && r.viewerImage == w.viewerImage && r.log == w.log
    ensures ShowsNavigation(r, w.nav, fs, w.viewerImage)
  {
    var st := GetNavigationState(w.nav, fs, w.viewerImage);
    w.(nav := st.0, prevEnabled := st.1.prevEnabled, nextEnabled := st.1.nextEnabled, navInfo := st.1.infoText)
  }

  /** A second update over the same snapshot changes nothing. */
  lemma UpdateNavigationButtonsIdempotent(w: Window, fs: FileSystem)
    ensures UpdateNavigationButtons(UpdateNavigationButtons(w, fs), fs) == UpdateNavigationButtons(w, fs)
  {
  }

  const InitialLog := ["Grab-O-Scope GUI initialized", "Ready to capture from oscilloscope"]

  /**
   * The window after `__init__`: no capture running, nothing displayed, the navigation
   * computed once, and options with the configured instrument name, no file name,
   * `auto_view` off and `verbose` and `trace` on.
   */
  function InitialWindow(python: string, script: string, instrumentName: Option<string>, fs: FileSystem): (w: Window)
    ensures w.phase == Idle && w.captureEnabled && !w.loading && CaptureLock(w)
    ensures w.grabber == GrabberWrapper(python, script, Options(instrumentName, None, false, true, true))
    ensures w.viewerImage == None && w.nav.currentImage == None
    ensures ShowsNavigation(w, Manager(None), fs, None)
    ensures w.prevEnabled == w.nextEnabled == (GetSortedCaptures(fs) != [])
    ensures w.log == InitialLog
  {
    var options := Options(instrumentName, None, false, true, true);
    var start := Window(Idle, true, false, GrabberWrapper(python, script, options), None, Manager(None),
                        false, false, "", []);
    var w := UpdateNavigationButtons(start, fs).(log := InitialLog);
    if GetSortedCaptures(fs) == [] then
      NoCapturesState(start.nav, fs, None); w
    else
      UnplacedState(start.nav, fs, None); w
  }

  const AlreadyRunning := "⚠️ Capture already in progress..."
  const StartingCapture := "Starting capture..."

  /** `"=" * 50`. */
  function Rule(): (r: string)
    ensures |r| == 50 && forall i :: 0 <= i < 50 ==> r[i] == '='
  {
    seq(50, _ => '=')
  }

  /**
   * `capture_screen()` on the window: refused with a log line while a capture runs;
   * otherwise the options get a new timestamped file name, the capture button and the
   * navigation buttons are disabled, and a capture thread starts.
   */
  function RequestCapture(w: Window, configured: Option<string>, moduleFile: string, now: DateTime): (r: Window)
    requires ValidDateTime(now)
    ensures CaptureLock(w) ==> CaptureLock(r)
    ensures w.phase == Running ==> r == w.(log := w.log + [AlreadyRunning])
    ensures w.phase == Idle ==>
      && r.phase == Running && !r.captureEnabled && !r.prevEnabled && !r.nextEnabled && r.loading
      && r.grabber == w.grabber.(options := w.grabber.options.(
           filename := Some(GenerateTimestampedFilename(configured, moduleFile, now))))
      && r.viewerImage == w.viewerImage && r.nav == w.nav && r.navInfo == w.navInfo
      && r.log == w.log + [Rule(), StartingCapture]
  {
    if w.phase == Running then
      w.(log := w.log + [AlreadyRunning])
    else
      var file := GenerateTimestampedFilename(configured, moduleFile, now);
      var options := w.grabber.options.(filename := Some(file));
      w.(phase := Running, captureEnabled := false, loading := true,
         grabber := w.grabber.(options := options),
         prevEnabled := false, nextEnabled := false,
         log := w.log + [Rule(), StartingCapture])
  }

  function SuccessLine(filename: string): string {
    "Success! Screen captured and saved as: " + filename
  }

  const DisplayFailed := "⚠️ Failed to display captured image"

  function ErrorLine(message: string): string {
    "❌ Error: " + message
  }

  /**
   * The slot connected to one signal of the capture thread. A terminal signal is taken
   * to arrive after the thread has stopped running. After `finished` the captured image
   * is shown when it can be displayed; the navigation update scheduled half a second
   * later is the separate event `DelayedUpdate`.
   */
  function Deliver(w: Window, s: Signal, fs: FileSystem, decodable: set<string>): (r: Window)
    ensures s.Output? ==> r == w.(log := w.log + [s.line])
    ensures !s.Output? ==> r.phase == Idle && r.captureEnabled && !r.loading && r.grabber == w.grabber
    ensures s.Finished? ==>
      r.prevEnabled == w.prevEnabled && r.nextEnabled == w.nextEnabled && r.navInfo == w.navInfo
    ensures s.Finished? ==>
      if Displays(fs, decodable, s.filename)
      then r.viewerImage == Some(s.filename) && r.nav == Manager(Some(s.filename))
           && r.log == w.log + [SuccessLine(s.filename)]
      else r.viewerImage == w.viewerImage && r.nav == w.nav
           && r.log == w.log + [SuccessLine(s.filename), DisplayFailed]
    ensures s.Error? ==>
      && r.viewerImage == w.viewerImage && r.log == w.log + [ErrorLine(s.message)]
      && ShowsNavigation(r, w.nav, fs, w.viewerImage)
  {
    match s
    case Output(line) =>
      w.(log := w.log + [line])
    case Finished(filename) =>
      var done := w.(phase := Idle, captureEnabled := true, loading := false,
                     log := w.log + [SuccessLine(filename)]);
      var shown := DisplayImage(done.viewerImage, fs, decodable, filename);
      if shown.0 then
        done.(viewerImage := shown.1, nav := Manager(Some(filename)))
      else
        done.(log := done.log + [DisplayFailed])
    case Error(message) =>
      var done := w.(phase := Idle, captureEnabled := true, loading := false);
      var updated := UpdateNavigationButtons(done, fs);
      updated.(log := updated.log + [ErrorLine(message)])
  }

  /** The signals of a thread delivered in order, each over the same snapshot. */
  function DeliverAll(w: Window, sigs: seq<Signal>, fs: FileSystem, decodable: set<string>): Window
    decreases |sigs|
  {
    if sigs == [] then w else DeliverAll(Deliver(w, sigs[0], fs, decodable), sigs[1..], fs, decodable)
  }

  /** `output` signals only append their lines to the log. */
  lemma {:induction false} DeliverOutputs(w: Window, lines: seq<string>, fs: FileSystem, decodable: set<string>)
    ensures DeliverAll(w, Outputs(lines), fs, decodable) == w.(log := w.log + lines)
    decreases |lines|
  {
    if lines == [] {
      assert w.log + lines == w.log;
    } else {
      var sigs := Outputs(lines);
      var w1 := w.(log := w.log + [lines[0]]);
      assert sigs[1..] == Outputs(lines[1..]);
      DeliverAllFirst(w, sigs, fs, decodable);
      DeliverOutputs(w1, lines[1..], fs, decodable);
      assert w1.log + lines[1..] == w.log + lines;
    }
  }

  lemma DeliverAllFirst(w: Window, sigs: seq<Signal>, fs: FileSystem, decodable: set<string>)
    requires sigs != [] && sigs[0].Output?
    ensures DeliverAll(w, sigs, fs, decodable) == DeliverAll(w.(log := w.log + [sigs[0].line]), sigs[1..], fs, decodable)
  {
  }

  lemma {:induction false} DeliverAllAppend(w: Window, a: seq<Signal>, s: Signal, fs: FileSystem, decodable: set<string>)
    ensures DeliverAll(w, a + [s], fs, decodable) == Deliver(DeliverAll(w, a, fs, decodable), s, fs, decodable)
    decreases |a|
  {
    if a == [] {
      assert a + [s] == [s];
    } else {
      assert (a + [s])[1..] == a[1..] + [s];
      DeliverAllAppend(Deliver(w, a[0], fs, decodable), a[1..], s, fs, decodable);
    }
  }

  /**
   * One whole capture from an idle window: the request takes the lock, the thread's
   * signals are handled in order, and the window ends idle with the capture button
   * enabled again, whatever the process did. On success the new capture is displayed
   * when it can be.
   */
  lemma CaptureCycle(w: Window, configured: Option<string>, moduleFile: string, now: DateTime,
                     p: Process, fs: FileSystem, decodable: set<string>)
    requires ValidDateTime(now) && w.phase == Idle
    ensures var started := RequestCapture(w, configured, moduleFile, now);
      var done := DeliverAll(started, RunCaptureThread(started.grabber, p), fs, decodable);
      var file := GenerateTimestampedFilename(configured, moduleFile, now);
      && done.phase == Idle && done.captureEnabled && CaptureLock(done)
      && (p.Exited? && p.exitCode == 0 && Displays(fs, decodable, file) ==> done.viewerImage == Some(file))
  {
    var started := RequestCapture(w, configured, moduleFile, now);
    var r := CaptureScreen(started.grabber, None, p);
    assert r.0 == started.grabber;
    var sigs := RunCaptureThread(started.grabber, p);
    var lines := r.1.callbacks;
    assert sigs == Outputs(lines) + [sigs[|sigs| - 1]];
    DeliverAllAppend(started, Outputs(lines), sigs[|sigs| - 1], fs, decodable);
    DeliverOutputs(started, lines, fs, decodable);
  }

  /** `refresh_navigation_state()`: the timer's update, skipped while a capture runs. */
  function Refresh(w: Window, fs: FileSystem): (r: Window)
    ensures w.phase == Running ==> r == w
    ensures KeepsCapture(r, w) && r.viewerImage == w.viewerImage && r.log == w.log
    ensures w.phase == Idle ==> ShowsNavigation(r, w.nav, fs, w.viewerImage)
  {
    if w.phase == Running then w else UpdateNavigationButtons(w, fs)
  }

  /** Refreshing twice over the same snapshot is refreshing once. */
  lemma RefreshIdempotent(w: Window, fs: FileSystem)
    ensures Refresh(Refresh(w, fs), fs) == Refresh(w, fs)
  {
    UpdateNavigationButtonsIdempotent(w, fs);
  }

  /**
   * `handle_navigation(direction)`: `'prev'` asks for the previous image, anything else
   * for the next; a truthy answer that can be displayed becomes the current image.
   */
  function HandleNavigation(w: Window, fs: FileSystem, decodable: set<string>, direction: string): (r: Window)
    ensures KeepsCapture(r, w) && r.log == w.log
    ensures var target := if direction == "prev" then GetPreviousImage(w.nav, fs) else GetNextImage(w.nav, fs);
      if Truthy(target) && Displays(fs, decodable, target.value)
      then && r.viewerImage == target && r.nav == Manager(target) && target.value in GetSortedCaptures(fs)
           && ShowsNavigation(r, Manager(target), fs, target)
      else r == w
  {
    var target := if direction == "prev" then GetPreviousImage(w.nav, fs) else GetNextImage(w.nav, fs);
    if Truthy(target) && Displays(fs, decodable, target.value) then
      UpdateNavigationButtons(w.(viewerImage := target, nav := Manager(target)), fs)
    else
      w
  }

  /**
   * The arrow keys are not blocked while a capture runs: moving onto a capture that has
   * an older one enables the previous button although the capture is still running.
   */
  lemma NavigationDuringCapture(w: Window, fs: FileSystem, decodable: set<string>, direction: string)
    requires WellFormed(fs) && w.phase == Running
    requires var target := if direction == "prev" then GetPreviousImage(w.nav, fs) else GetNextImage(w.nav, fs);
      && Truthy(target) && Displays(fs, decodable, target.value)
      && target.value in GetSortedCaptures(fs) && IndexOf(GetSortedCaptures(fs), target.value) > 0
    ensures var r := HandleNavigation(w, fs, decodable, direction);
      r.phase == Running && r.captureEnabled == w.captureEnabled && r.prevEnabled
  {
    var target := if direction == "prev" then GetPreviousImage(w.nav, fs) else GetNextImage(w.nav, fs);
    var caps := GetSortedCaptures(fs);
    var i := IndexOf(caps, target.value);
    PlacedState(Manager(target), fs, target, i);
  }

  // ---------------------------------------------------------------------------
  // Deleting the displayed image
  // ---------------------------------------------------------------------------

  /**
   * The image shown before a deleted file goes away: with more than one capture and
   * the file among them at index `i`, the next capture, or the previous one when `i`
   * is the last index. None when the view is not switched.
   */
  function NeighbourAfterDelete(captures: seq<string>, file: string): (r: Option<string>)
    ensures r.Some? <==> |captures| > 1 && file in captures
    ensures r.Some? ==>
      var i := IndexOf(captures, file);
      if i < |captures| - 1 then r.value == captures[i + 1] else r.value == captures[i - 1]
  {
    if |captures| > 1 && file in captures then
      var i := IndexOf(captures, file);
      if i < |captures| - 1 then Some(captures[i + 1])
      else if i > 0 then Some(captures[i - 1])
      else None
    else
      None
  }

  /** Over a well-formed directory the image switched to is a listed capture other than the deleted file. */
  lemma NeighbourIsAnotherCapture(fs: FileSystem, file: string)
    requires WellFormed(fs)
    ensures var r := NeighbourAfterDelete(GetSortedCaptures(fs), file);
      r.Some? ==> r.value in GetSortedCaptures(fs) && r.value != file
  {
    var caps := GetSortedCaptures(fs);
    SortedPathsDistinct(fs);
    if |caps| > 1 && file in caps {
      var i := IndexOf(caps, file);
      if i < |caps| - 1 {
        assert caps[i] != caps[i + 1];
      } else {
        assert caps[i - 1] != caps[i];
      }
    }
  }

  function DeletedLine(file: string): string {
    "Deleted: " + Paths.Basename(file)
  }

  function DeleteFailedLine(reason: string): string {
    "❌ Failed to delete image: " + reason
  }

  /**
   * `delete_current_image()` once the dialog has been answered. `before` is the directory
   * when the neighbour is chosen and shown, `removeError` the exception of `os.remove`
   * (None when it succeeded), `after` the directory for the final navigation update.
   * Without a displayed image, or when the deletion is not confirmed, nothing happens.
   */
  function DeleteCurrentImage(w: Window, before: FileSystem, decodable: set<string>, confirmed: bool,
                              removeError: Option<string>, after: FileSystem): (r: Window)
    ensures r.phase == w.phase && r.captureEnabled == w.captureEnabled
    ensures !Truthy(w.viewerImage) || !confirmed ==> r == w
    ensures Truthy(w.viewerImage) && confirmed ==>
      r == ConfirmedDelete(w, w.viewerImage.value, before, decodable, removeError, after)
  {
    if !Truthy(w.viewerImage) || !confirmed then w
    else ConfirmedDelete(w, w.viewerImage.value, before, decodable, removeError, after)
  }

  /**
   * The confirmed deletion of the displayed `file`: the neighbour is shown when it can be
   * displayed; a failed removal only logs; a successful one logs, clears the viewer when
   * `file` was the only capture, and updates the navigation over `after`.
   */
  function ConfirmedDelete(w: Window, file: string, before: FileSystem, decodable: set<string>,
                           removeError: Option<string>, after: FileSystem): (r: Window)
    ensures KeepsCapture(r, w)
    ensures var captures := GetSortedCaptures(before);
      var next := NeighbourAfterDelete(captures, file);
      var shown := if next.Some? && Displays(before, decodable, next.value) then next else w.viewerImage;
      && (removeError.Some? ==> r == w.(viewerImage := shown, log := w.log + [DeleteFailedLine(removeError.value)]))
      && (removeError.None? ==>
            && r.log == w.log + [DeletedLine(file)]
            && r.viewerImage == (if |captures| <= 1 then None else shown)
            && ShowsNavigation(r, w.nav, after, r.viewerImage))
  {
    var captures := GetSortedCaptures(before);
    var next := NeighbourAfterDelete(captures, file);
    var switched := if next.Some? && Displays(before, decodable, next.value) then w.(viewerImage := next) else w;
    if removeError.Some? then
      switched.(log := switched.log + [DeleteFailedLine(removeError.value)])
    else
      var removed := switched.(log := switched.log + [DeletedLine(file)]);
      var cleared := if |captures| <= 1 then removed.(viewerImage := None) else removed;
      UpdateNavigationButtons(cleared, after)
  }

  /**
   * A confirmed, successful deletion of a displayed capture among several leaves a
   * different capture on screen whenever that neighbour can be displayed.
   */
  lemma DeleteShowsNeighbour(w: Window, before: FileSystem, decodable: set<string>, after: FileSystem)
    requires WellFormed(before) && Truthy(w.viewerImage)
    requires w.viewerImage.value in GetSortedCaptures(before) && |GetSortedCaptures(before)| > 1
    ensures var next := NeighbourAfterDelete(GetSortedCaptures(before), w.viewerImage.value);
      var r := DeleteCurrentImage(w, before, decodable, true, None, after);
      && next.Some?
      && (Displays(before, decodable, next.value) ==> r.viewerImage == next && next != w.viewerImage)
  {
    var file := w.viewerImage.value;
    var captures := GetSortedCaptures(before);
    var next := NeighbourAfterDelete(captures, file);
    NeighbourIsAnotherCapture(before, file);
    if Displays(before, decodable, next.value) {
      var r := DeleteCurrentImage(w, before, decodable, true, None, after);
      assert r.viewerImage == next;
    }
  }

  // ---------------------------------------------------------------------------
  // Renaming the displayed image
  // ---------------------------------------------------------------------------

  /** What `rename_current_image()` decides from the dialog's answer. */
  datatype RenamePlan =
    | Cancelled
    | Unchanged
    | Rejected(newFilename: string)
    | Move(newPath: string, newFilename: string)

  /**
   * The dialog returns None when cancelled. An empty answer is ignored, trailing
   * whitespace is stripped, the old extension is put back, and the new path in the same
   * directory is refused when it names another existing file.
   */
  function PlanRename(oldPath: string, answer: Option<string>, fs: FileSystem): (r: RenamePlan)
    ensures r.Cancelled? <==> !Truthy(answer)
    ensures r.Unchanged? <==> Truthy(answer) && RStrip(answer.value) == Paths.SplitExt(Paths.Basename(oldPath)).0
    ensures r.Rejected? || r.Move? ==>
      r.newFilename == RStrip(answer.value) + Paths.SplitExt(Paths.Basename(oldPath)).1
    ensures r.Move? ==> r.newPath == Paths.Join(Paths.Dirname(oldPath), r.newFilename)
    ensures r.Move? ==> r.newPath == oldPath || Stat(fs, r.newPath).None?
    ensures r.Rejected? ==>
      var target := Paths.Join(Paths.Dirname(oldPath), r.newFilename);
      target != oldPath && Stat(fs, target).Some?
  {
    var parts := Paths.SplitExt(Paths.Basename(oldPath));
    if !Truthy(answer) then
      Cancelled
    else
      var newName := RStrip(answer.value);
      if newName == parts.0 then
        Unchanged
      else
        var newFilename := newName + parts.1;
        var newPath := Paths.Join(Paths.Dirname(oldPath), newFilename);
        if Stat(fs, newPath).Some? && newPath != oldPath then Rejected(newFilename)
        else Move(newPath, newFilename)
  }

  /**
   * A new name without separators keeps the file in its directory under exactly the new
   * file name, and when the old file had an extension and the new name is not all dots,
   * the new file has the same extension and the stripped name as its stem.
   */
  lemma RenameStaysInPlace(oldPath: string, answer: Option<string>, fs: FileSystem)
    requires PlanRename(oldPath, answer, fs).Move?
    requires Paths.NoSep(RStrip(answer.value))
    ensures var plan := PlanRename(oldPath, answer, fs);
      var ext := Paths.SplitExt(Paths.Basename(oldPath)).1;
      && Paths.Dirname(plan.newPath) == Paths.Dirname(oldPath)
      && Paths.Basename(plan.newPath) == plan.newFilename
      && (ext != [] && !Paths.AllDots(RStrip(answer.value)) ==>
            Paths.SplitExt(plan.newFilename) == (RStrip(answer.value), ext))
  {
    var plan := PlanRename(oldPath, answer, fs);
    var ext := Paths.SplitExt(Paths.Basename(oldPath)).1;
    Paths.NoSepAppend(RStrip(answer.value), ext);
    if ext != [] && !Paths.AllDots(RStrip(answer.value)) {
      Paths.SplitExtOfAppend(RStrip(answer.value), ext);
    }
    Paths.BasenameOfJoin(Paths.Dirname(oldPath), plan.newFilename);
    Paths.DirnameOfJoin(oldPath, plan.newFilename);
  }

  function RenamedLine(oldFilename: string, newFilename: string): string {
    "Renamed: " + oldFilename + " → " + newFilename
  }

  function RenameFailedLine(reason: string): string {
    "❌ Failed to rename image: " + reason
  }

  /**
   * The message of the `AttributeError` raised by `self.image_viewer.filename_overlay`:
   * the image viewer widget has no such attribute.
   */
  const OverlayError := "'ImageViewerWidget' object has no attribute 'filename_overlay'"

  /**
   * `rename_current_image()` as written, once the dialog has been answered:
   * `renameError` is the exception of `os.rename` (None when it succeeded). After a
   * successful rename the viewer's path becomes the new path and the rename is logged,
   * but the overlay update then raises, so the handler logs that failure as a rename
   * failure and the navigation update never runs.
   */
  function RenameCurrentImage(w: Window, fs: FileSystem, answer: Option<string>,
                              renameError: Option<string>): (r: Window)
    ensures r.phase == w.phase && r.captureEnabled == w.captureEnabled
    ensures r.nav == w.nav && r.prevEnabled == w.prevEnabled && r.nextEnabled == w.nextEnabled
    ensures r.navInfo == w.navInfo && r.grabber == w.grabber && r.loading == w.loading
    ensures !Truthy(w.viewerImage) ==> r == w
    ensures Truthy(w.viewerImage) ==>
      var plan := PlanRename(w.viewerImage.value, answer, fs);
      && (!plan.Move? ==> r == w)
      && (plan.Move? && renameError.Some? ==>
            r == w.(log := w.log + [RenameFailedLine(renameError.value)]))
      && (plan.Move? && renameError.None? ==>
            && r.viewerImage == Some(plan.newPath)
            && r.log == w.log + [RenamedLine(Paths.Basename(w.viewerImage.value), plan.newFilename),
                                 RenameFailedLine(OverlayError)])
  {
    if !Truthy(w.viewerImage) then
      w
    else
      var oldPath := w.viewerImage.value;
      match PlanRename(oldPath, answer, fs)
      case Move(newPath, newFilename) =>
        if renameError.Some? then
          w.(log := w.log + [RenameFailedLine(renameError.value)])
        else
          w.(viewerImage := Some(newPath),
             log := w.log + [RenamedLine(Paths.Basename(oldPath), newFilename), RenameFailedLine(OverlayError)])
      case _ =>
        w
  }

  /**
   * `rename_current_image()` as its comments intend: after a successful rename the
   * overlay shows the new name and the navigation is updated over `after`, the directory
   * following the rename, so the new path becomes the navigation's current image.
   */
  function RenameCurrentImageIntended(w: Window, fs: FileSystem, answer: Option<string>,
                                      renameError: Option<string>, after: FileSystem): (r: Window)
    ensures KeepsCapture(r, w)
    ensures !Truthy(w.viewerImage) ==> r == w
    ensures Truthy(w.viewerImage) ==>
      var plan := PlanRename(w.viewerImage.value, answer, fs);
      && (!plan.Move? ==> r == w)
      && (plan.Move? && renameError.Some? ==>
            r == w.(log := w.log + [RenameFailedLine(renameError.value)]))
      && (plan.Move? && renameError.None? ==>
            && r.viewerImage == Some(plan.newPath)
            && r.nav.currentImage == Some(plan.newPath)
            && ShowsNavigation(r, w.nav, after, Some(plan.newPath))
            && r.log == w.log + [RenamedLine(Paths.Basename(w.viewerImage.value), plan.newFilename)])
  {
    if !Truthy(w.viewerImage) then
      w
    else
      var oldPath := w.viewerImage.value;
      match PlanRename(oldPath, answer, fs)
      case Move(newPath, newFilename) =>
        if renameError.Some? then
          w.(log := w.log + [RenameFailedLine(renameError.value)])
        else
          var renamed := w.(viewerImage := Some(newPath),
                            log := w.log + [RenamedLine(Paths.Basename(oldPath), newFilename)]);
          UpdateNavigationButtons(renamed, after)
      case _ =>
        w
  }

  /**
   * Every successful rename ends, as written, with a failure line in the log and the
   * navigation still naming the old path, which no longer exists; as intended, the log
   * holds only the rename and the navigation follows the new path.
   */
  lemma RenameReportsOverlayFailure(w: Window, fs: FileSystem, answer: Option<string>, after: FileSystem)
    requires Truthy(w.viewerImage) && PlanRename(w.viewerImage.value, answer, fs).Move?
    ensures var asWritten := RenameCurrentImage(w, fs, answer, None);
      var intended := RenameCurrentImageIntended(w, fs, answer, None, after);
      && asWritten.log[|asWritten.log| - 1] == RenameFailedLine(OverlayError)
      && asWritten.nav == w.nav
      && |intended.log| == |asWritten.log| - 1
      && intended.nav.currentImage == intended.viewerImage == asWritten.viewerImage
      && asWritten != intended
  {
    var plan := PlanRename(w.viewerImage.value, answer, fs);
    var renamed := RenamedLine(Paths.Basename(w.viewerImage.value), plan.newFilename);
    var asWritten := RenameCurrentImage(w, fs, answer, None);
    var intended := RenameCurrentImageIntended(w, fs, answer, None, after);
    assert asWritten.log == w.log + [renamed, RenameFailedLine(OverlayError)];
    assert intended.log == w.log + [renamed];
    assert |asWritten.log| != |intended.log|;
  }

  /**
   * The rename as written also keeps the phase and the capture button, so the capture
   * lock results about `Step` hold whichever rename handler the event runs.
   */
  lemma RenameAsWrittenKeepsCaptureLock(w: Window, fs: FileSystem, answer: Option<string>,
                                        renameError: Option<string>)
    ensures var r := RenameCurrentImage(w, fs, answer, renameError);
      && r.phase == w.phase && r.captureEnabled == w.captureEnabled
      && (CaptureLock(w) ==> CaptureLock(r))
  {
  }

  // ---------------------------------------------------------------------------
  // Clearing, opening a file and the settings dialog
  // ---------------------------------------------------------------------------

  const ImageCleared := "Image cleared"

  /**
   * `clear_image()`: the viewer and the navigation forget the current image and the
   * buttons are recomputed, so with captures present both navigation buttons are on
   * (previous goes to the newest capture, next to the oldest) and without any both are off.
   */
  function ClearImage(w: Window, fs: FileSystem): (r: Window)
    ensures KeepsCapture(r, w)
    ensures r.viewerImage == None && r.nav.currentImage == None
    ensures ShowsNavigation(r, Manager(None), fs, None)
    ensures r.prevEnabled == r.nextEnabled == (GetSortedCaptures(fs) != [])
    ensures r.log == w.log + [ImageCleared]
  {
    var cleared := w.(viewerImage := None, nav := Manager(None));
    var updated := UpdateNavigationButtons(cleared, fs);
    var r := updated.(log := updated.log + [ImageCleared]);
    if GetSortedCaptures(fs) == [] then
      NoCapturesState(cleared.nav, fs, None); r
    else
      UnplacedState(cleared.nav, fs, None); r
  }

  /**
   * `open_image_file()` once the file dialog has been answered with `chosen` (None or
   * empty when cancelled): a file that can be displayed becomes the viewer's and the
   * navigation's current image and the buttons follow it; anything else changes nothing.
   */
  function OpenImageFile(w: Window, chosen: Option<string>, fs: FileSystem, decodable: set<string>): (r: Window)
    ensures KeepsCapture(r, w) && r.log == w.log
    ensures Truthy(chosen) && Displays(fs, decodable, chosen.value) ==>
      && r.viewerImage == chosen && r.nav.currentImage == chosen
      && ShowsNavigation(r, Manager(chosen), fs, chosen)
    ensures !(Truthy(chosen) && Displays(fs, decodable, chosen.value)) ==> r == w
  {
    if !Truthy(chosen) then w
    else
      var shown := DisplayImage(w.viewerImage, fs, decodable, chosen.value);
      if !shown.0 then w
      else UpdateNavigationButtons(w.(viewerImage := shown.1, nav := Manager(chosen)), fs)
  }

  const SettingsUpdated := "⚙️ Settings updated"

  /**
   * `open_settings()` once the dialog has closed: when it was accepted, the options take
   * the instrument name now configured (None when the key is missing) and `trace` is
   * switched on; a file name and the other flags are kept.
   */
  function ApplySettings(w: Window, accepted: bool, instrumentName: Option<string>): (r: Window)
    ensures r.phase == w.phase && r.captureEnabled == w.captureEnabled
    ensures r == w.(grabber := r.grabber, log := r.log)
    ensures !accepted ==> r == w
    ensures accepted ==>
      && r.grabber.python == w.grabber.python && r.grabber.script == w.grabber.script
      && r.grabber.options.name == instrumentName && r.grabber.options.trace
      && r.grabber.options.filename == w.grabber.options.filename
      && r.grabber.options.autoView == w.grabber.options.autoView
      && r.grabber.options.verbose == w.grabber.options.verbose
      && r.log == w.log + [SettingsUpdated]
  {
    if !accepted then w
    else
      var options := w.grabber.options.(name := instrumentName, trace := true);
      w.(grabber := w.grabber.(options := options), log := w.log + [SettingsUpdated])
  }

  /** `clear_log()` from the View menu: the log is emptied and nothing else changes. */
  function ClearLog(w: Window): (r: Window)
    ensures r.log == [] && r == w.(log := r.log)
  {
    w.(log := [])
  }

  // ---------------------------------------------------------------------------
  // Every event
  // ---------------------------------------------------------------------------

  /**
   * What can happen to the window, with the outside answers each handler needs.
   * `TimerTick` is the one-second refresh, which a running capture suppresses;
   * `DelayedUpdate` is the half-second `singleShot` update after a displayed capture,
   * which is not guarded, so it can re-enable the navigation buttons during a capture
   * started in between.
   */
  datatype Event =
    | CaptureClicked(configured: Option<string>, moduleFile: string, now: DateTime)
    | ThreadSignal(signal: Signal, fs: FileSystem, decodable: set<string>)
    | TimerTick(fs: FileSystem)
    | DelayedUpdate(fs: FileSystem)
    | NavigationKey(direction: string, fs: FileSystem, decodable: set<string>)
    | DeleteAnswered(before: FileSystem, decodable: set<string>, confirmed: bool,
                     removeError: Option<string>, after: FileSystem)
    | RenameAnswered(fs: FileSystem, answer: Option<string>, renameError: Option<string>, after: FileSystem)
    | ClearClicked(fs: FileSystem)
    | OpenAnswered(chosen: Option<string>, fs: FileSystem, decodable: set<string>)
    | SettingsClosed(accepted: bool, instrumentName: Option<string>)
    | LogCleared

  /** `datetime.now()` only produces valid date-times. */
  predicate ValidEvent(e: Event) {
    e.CaptureClicked? ==> ValidDateTime(e.now)
  }

  /**
   * The window's reaction to one event. The capture lock holds after every event if
   * it held before, only a capture request moves the window from idle to running, and
   * only a terminal signal of the capture thread moves it back. A successful rename is
   * taken as intended, with the navigation following the new path.
   */
  function Step(w: Window, e: Event): (r: Window)
    requires ValidEvent(e)
    ensures CaptureLock(w) ==> CaptureLock(r)
    ensures r.phase == Running ==> w.phase == Running || e.CaptureClicked?
    ensures w.phase == Running && !(e.ThreadSignal? && !e.signal.Output?) ==> r.phase == Running
    ensures e.ThreadSignal? && !e.signal.Output? ==> r.phase == Idle
  {
    match e
    case CaptureClicked(configured, moduleFile, now) => RequestCapture(w, configured, moduleFile, now)
    case ThreadSignal(signal, fs, decodable) => Deliver(w, signal, fs, decodable)
    case TimerTick(fs) => Refresh(w, fs)
    case DelayedUpdate(fs) => UpdateNavigationButtons(w, fs)
    case NavigationKey(direction, fs, decodable) => HandleNavigation(w, fs, decodable, direction)
    case DeleteAnswered(before, decodable, confirmed, removeError, after) =>
      DeleteCurrentImage(w, before, decodable, confirmed, removeError, after)
    case RenameAnswered(fs, answer, renameError, after) =>
      RenameCurrentImageIntended(w, fs, answer, renameError, after)
    case ClearClicked(fs) => ClearImage(w, fs)
    case OpenAnswered(chosen, fs, decodable) => OpenImageFile(w, chosen, fs, decodable)
    case SettingsClosed(accepted, instrumentName) => ApplySettings(w, accepted, instrumentName)
    case LogCleared => ClearLog(w)
  }

  /** Any run of events from a locked-consistent window keeps the capture lock. */
  lemma {:induction false} StepsKeepCaptureLock(w: Window, es: seq<Event>)
    requires CaptureLock(w)
    requires forall i :: 0 <= i < |es| ==> ValidEvent(es[i])
    ensures CaptureLock(Steps(w, es))
    decreases |es|
  {
    if es != [] {
      StepsKeepCaptureLock(Step(w, es[0]), es[1..]);
    }
  }

  function Steps(w: Window, es: seq<Event>): Window
    requires forall i :: 0 <= i < |es| ==> ValidEvent(es[i])
    decreases |es|
  {
    if es == [] then w else Steps(Step(w, es[0]), es[1..])
  }
}

=== FILE: navigation.dfy ===
/**
 * `NavigationManager`: the navigation state and the previous/next image over a
 * snapshot of the capture directory, for a stored current image that may be stale.
 */
module Navigation {
  import opened Wrappers
  import opened Strings
  import opened Decimal
  import opened CaptureOrder

  /** The manager's only state, `current_image`. */
  datatype Manager = Manager(currentImage: Option<string>)

  /**
   * The dictionary `get_navigation_state` returns; `currentIndex` is the
   * `current_index` key, present only when the current image is in the list.
   */
  datatype NavState = NavState(prevEnabled: bool, nextEnabled: bool, infoText: string,
                               totalCount: nat, currentIndex: Option<nat>)

  const NavHint: string := " | Use \U{2190} \U{2192} arrow keys to navigate"

  function TotalLabel(n: nat): string {
    "Total images: " + NatToString(n) + NavHint
  }

  function PositionLabel(i: nat, n: nat): string {
    "Image " + NatToString(i + 1) + " of " + NatToString(n) + NavHint
  }

  /** Python's `list.index`: the first position holding `x`. */
  function IndexOf(s: seq<string>, x: string): (i: nat)
    requires x in s
    ensures i < |s| && s[i] == x
    ensures forall j :: 0 <= j < i ==> s[j] != x
  {
    if s[0] == x then 0 else 1 + IndexOf(s[1..], x)
  }

  /**
   * `get_navigation_state(current_image)`: a non-None argument replaces the stored
   * current image first; the state is then derived from the sorted captures.
   */
  function GetNavigationState(m: Manager, fs: FileSystem, arg: Option<string>): (r: (Manager, NavState))
    ensures r.0.currentImage == (if arg.Some? then arg else m.currentImage)
    ensures r.1.totalCount == |GetSortedCaptures(fs)|
    ensures r.1.currentIndex.Some? ==>
      && r.1.currentIndex.value < |GetSortedCaptures(fs)|
      && r.0.currentImage == Some(GetSortedCaptures(fs)[r.1.currentIndex.value])
  {
    var m' := if arg.Some? then Manager(arg) else m;
    var caps := GetSortedCaptures(fs);
    var n := |caps|;
    var state :=
      if n == 0 then
        NavState(false, false, "", 0, None)
      else if !Truthy(m'.currentImage) || Stat(fs, m'.currentImage.value).None? then
        NavState(n > 0, n > 0, TotalLabel(n), n, None)
      else if m'.currentImage.value !in caps then
        NavState(true, true, TotalLabel(n), n, None)
      else
        var i := IndexOf(caps, m'.currentImage.value);
        NavState(i > 0, i < n - 1, PositionLabel(i, n), n, Some(i));
    (m', state)
  }

  /** An upper or lower bound on modification times; `Infinity` stands for Python's `float('inf')`. */
  datatype MtimeBound = Finite(t: int) | Infinity

  predicate Exceeds(t: int, b: MtimeBound) {
    b.Finite? && t > b.t
  }

  /**
   * The loop of `get_previous_image` over a stale current image: remember each
   * capture older than `bound`, stop at the first that is not.
   */
  function ScanOlder(caps: seq<Capture>, bound: int, found: Option<string>): (r: Option<string>)
    ensures r == found || exists j :: 0 <= j < |caps| && r == Some(caps[j].path)
  {
    if caps == [] then found
    else if caps[0].mtime < bound then
      var r := ScanOlder(caps[1..], bound, Some(caps[0].path));
      assert r == Some(caps[0].path) || exists j :: 0 <= j < |caps| - 1 && r == Some(caps[1..][j].path);
      r
    else found
  }

  /**
   * The loop of `get_next_image` over a stale current image: walking from the
   * newest, remember each capture newer than `bound`, stop at the first that is not.
   */
  function ScanNewer(caps: seq<Capture>, bound: MtimeBound, found: Option<string>): (r: Option<string>)
    ensures r == found || exists j :: 0 <= j < |caps| && r == Some(caps[j].path)
  {
    if caps == [] then found
    else if Exceeds(caps[|caps| - 1].mtime, bound) then
      ScanNewer(caps[..|caps| - 1], bound, Some(caps[|caps| - 1].path))
    else found
  }

  /** A scan's result is one of the listed paths. */
  lemma FoundIsListed(fs: FileSystem, r: Option<string>)
    requires r == None || exists j :: 0 <= j < |SortedCaptures(fs)| && r == Some(SortedCaptures(fs)[j].path)
    ensures r.Some? ==> r.value in GetSortedCaptures(fs)
  {
    if r.Some? {
      var j :| 0 <= j < |SortedCaptures(fs)| && r == Some(SortedCaptures(fs)[j].path);
      assert GetSortedCaptures(fs)[j] == r.value;
    }
  }

  /** `get_previous_image()`. */
  function GetPreviousImage(m: Manager, fs: FileSystem): (r: Option<string>)
    ensures r.Some? ==> r.value in GetSortedCaptures(fs)
  {
    var caps := SortedCaptures(fs);
    var paths := GetSortedCaptures(fs);
    if !Truthy(m.currentImage) then
      if paths == [] then None else Some(paths[|paths| - 1])
    else if paths == [] then None
    else
      var cur := m.currentImage.value;
      if cur !in paths then
        var bound := Stat(fs, cur).GetOr(0);
        var r := ScanOlder(caps, bound, None);
        FoundIsListed(fs, r);
        r
      else
        var i := IndexOf(paths, cur);
        if i > 0 then Some(paths[i - 1]) else None
  }

  /** `get_next_image()`. */
  function GetNextImage(m: Manager, fs: FileSystem): (r: Option<string>)
    ensures r.Some? ==> r.value in GetSortedCaptures(fs)
  {
    var caps := SortedCaptures(fs);
    var paths := GetSortedCaptures(fs);
    if !Truthy(m.currentImage) then
      if paths == [] then None else Some(paths[0])
    else if paths == [] then None
    else
      var cur := m.currentImage.value;
      if cur !in paths then
        var bound := match Stat(fs, cur) case Some(t) => Finite(t) case None => Infinity;
        var r := ScanNewer(caps, bound, None);
        FoundIsListed(fs, r);
        r
      else
        var i := IndexOf(paths, cur);
        if i < |paths| - 1 then Some(paths[i + 1]) else None
  }

  /** `j` is the newest position holding a capture strictly older than `bound`. */
  predicate LatestOlder(caps: seq<Capture>, bound: int, j: int) {
    && 0 <= j < |caps|
    && caps[j].mtime < bound
    && forall k :: j < k < |caps| ==> caps[k].mtime >= bound
  }

  /** `j` is the oldest position holding a capture strictly newer than `bound`. */
  predicate EarliestNewer(caps: seq<Capture>, bound: MtimeBound, j: int) {
    && 0 <= j < |caps|
    && Exceeds(caps[j].mtime, bound)
    && forall k :: 0 <= k < j ==> !Exceeds(caps[k].mtime, bound)
  }

  lemma {:induction false} ScanOlderFindsLatestOlder(caps: seq<Capture>, bound: int, found: Option<string>)
    requires SortedByMtime(caps)
    ensures (caps == [] || caps[0].mtime >= bound) ==> ScanOlder(caps, bound, found) == found
    ensures (caps != [] && caps[0].mtime < bound) ==>
      exists j :: LatestOlder(caps, bound, j) && ScanOlder(caps, bound, found) == Some(caps[j].path)
  {
    if caps != [] && caps[0].mtime < bound {
      var tail := caps[1..];
      ScanOlderFindsLatestOlder(tail, bound, Some(caps[0].path));
      if tail == [] || tail[0].mtime >= bound {
        assert LatestOlder(caps, bound, 0);
      } else {
        var j :| LatestOlder(tail, bound, j) && ScanOlder(tail, bound, Some(caps[0].path)) == Some(tail[j].path);
        assert LatestOlder(caps, bound, j + 1);
      }
    }
  }

  lemma {:induction false} ScanNewerFindsEarliestNewer(caps: seq<Capture>, bound: MtimeBound, found: Option<string>)
    requires SortedByMtime(caps)
    ensures (caps == [] || !Exceeds(caps[|caps| - 1].mtime, bound)) ==> ScanNewer(caps, bound, found) == found
    ensures (caps != [] && Exceeds(caps[|caps| - 1].mtime, bound)) ==>
      exists j :: EarliestNewer(caps, bound, j) && ScanNewer(caps, bound, found) == Some(caps[j].path)
  {
    if caps != [] && Exceeds(caps[|caps| - 1].mtime, bound) {
      var init := caps[..|caps| - 1];
      var last := caps[|caps| - 1];
      ScanNewerFindsEarliestNewer(init, bound, Some(last.path));
      if init == [] || !Exceeds(init[|init| - 1].mtime, bound) {
        assert EarliestNewer(caps, bound, |caps| - 1);
      } else {
        var j :| EarliestNewer(init, bound, j) && ScanNewer(init, bound, Some(last.path)) == Some(init[j].path);
        assert EarliestNewer(caps, bound, j);
      }
    }
  }

  /** A path of the sorted list exists, and in a well-formed listing it is not empty. */
  lemma ListedPathExists(fs: FileSystem, p: string)
    requires p in GetSortedCaptures(fs)
    ensures Stat(fs, p).Some?
    ensures WellFormed(fs) ==> p != ""
  {
    SortedCapturesMembers(fs, p);
  }

  /** With no captures both flags are off, the label is empty and the count is 0, whatever the current image. */
  lemma NoCapturesState(m: Manager, fs: FileSystem, arg: Option<string>)
    requires GetSortedCaptures(fs) == []
    ensures GetNavigationState(m, fs, arg).1 == NavState(false, false, "", 0, None)
  {
  }

  /**
   * With captures and a current image that is unset, empty, missing or not listed,
   * both flags are on and the label gives the total.
   */
  lemma UnplacedState(m: Manager, fs: FileSystem, arg: Option<string>)
    requires |GetSortedCaptures(fs)| > 0
    requires var cur := if arg.Some? then arg else m.currentImage;
      !Truthy(cur) || Stat(fs, cur.value).None? || cur.value !in GetSortedCaptures(fs)
    ensures var n := |GetSortedCaptures(fs)|;
      GetNavigationState(m, fs, arg).1 == NavState(true, true, TotalLabel(n), n, None)
  {
  }

  /**
   * With the current image at position `i` of `n`, previous is enabled exactly when
   * `i > 0`, next exactly when `i < n - 1`, and the label gives the position.
   */
  lemma PlacedState(m: Manager, fs: FileSystem, arg: Option<string>, i: nat)
    requires WellFormed(fs)
    requires i < |GetSortedCaptures(fs)|
    requires (if arg.Some? then arg else m.currentImage) == Some(GetSortedCaptures(fs)[i])
    ensures var n := |GetSortedCaptures(fs)|;
      GetNavigationState(m, fs, arg).1 == NavState(i > 0, i < n - 1, PositionLabel(i, n), n, Some(i))
  {
    var paths := GetSortedCaptures(fs);
    ListedPathExists(fs, paths[i]);
    SortedPathsDistinct(fs);
    assert IndexOf(paths, paths[i]) == i;
  }

  /** With no current image, previous yields the newest capture and next the oldest. */
  lemma UnsetNeighbours(m: Manager, fs: FileSystem)
    requires !Truthy(m.currentImage)
    ensures var paths := GetSortedCaptures(fs);
      && GetPreviousImage(m, fs) == (if paths == [] then None else Some(paths[|paths| - 1]))
      && GetNextImage(m, fs) == (if paths == [] then None else Some(paths[0]))
  {
  }

  /** With the current image at position `i`, previous is position `i - 1` and next `i + 1`, when they exist. */
  lemma PlacedNeighbours(m: Manager, fs: FileSystem, i: nat)
    requires WellFormed(fs)
    requires i < |GetSortedCaptures(fs)|
    requires m.currentImage == Some(GetSortedCaptures(fs)[i])
    ensures var paths := GetSortedCaptures(fs);
      && GetPreviousImage(m, fs) == (if i > 0 then Some(paths[i - 1]) else None)
      && GetNextImage(m, fs) == (if i < |paths| - 1 then Some(paths[i + 1]) else None)
  {
    var paths := GetSortedCaptures(fs);
    ListedPathExists(fs, paths[i]);
    SortedPathsDistinct(fs);
    assert IndexOf(paths, paths[i]) == i;
  }

  /**
   * With a current image that is not listed, previous is the newest capture strictly
   * older than it and next the oldest capture strictly newer, or None when there is none.
   * A missing current image counts as time 0 for previous and as infinitely late for next.
   */
  lemma StaleNeighbours(m: Manager, fs: FileSystem)
    requires Truthy(m.currentImage)
    requires m.currentImage.value !in GetSortedCaptures(fs)
    ensures var caps := SortedCaptures(fs);
      var older := Stat(fs, m.currentImage.value).GetOr(0);
      var prev := GetPreviousImage(m, fs);
      && (prev.None? <==> forall k :: 0 <= k < |caps| ==> caps[k].mtime >= older)
      && (prev.Some? ==> exists j :: LatestOlder(caps, older, j) && prev == Some(caps[j].path))
    ensures var caps := SortedCaptures(fs);
      var newer := match Stat(fs, m.currentImage.value) case Some(t) => Finite(t) case None => Infinity;
      var next := GetNextImage(m, fs);
      && (next.None? <==> forall k :: 0 <= k < |caps| ==> !Exceeds(caps[k].mtime, newer))
      && (next.Some? ==> exists j :: EarliestNewer(caps, newer, j) && next == Some(caps[j].path))
  {
    StalePrevious(m, fs);
    StaleNext(m, fs);
  }

  lemma StalePrevious(m: Manager, fs: FileSystem)
    requires Truthy(m.currentImage)
    requires m.currentImage.value !in GetSortedCaptures(fs)
    ensures var caps := SortedCaptures(fs);
      var older := Stat(fs, m.currentImage.value).GetOr(0);
      var prev := GetPreviousImage(m, fs);
      && (prev.None? <==> forall k :: 0 <= k < |caps| ==> caps[k].mtime >= older)
      && (prev.Some? ==> exists j :: LatestOlder(caps, older, j) && prev == Some(caps[j].path))
  {
    var caps := SortedCaptures(fs);
    var older := Stat(fs, m.currentImage.value).GetOr(0);
    var prev := GetPreviousImage(m, fs);
    if caps != [] {
      assert GetSortedCaptures(fs) != [];
      assert prev == ScanOlder(caps, older, None);
      ScanOlderFindsLatestOlder(caps, older, None);
      if caps[0].mtime >= older {
        forall k | 0 <= k < |caps|
          ensures caps[k].mtime >= older
        {
          assert caps[0].mtime <= caps[k].mtime;
        }
      }
    }
  }

  lemma StaleNext(m: Manager, fs: FileSystem)
    requires Truthy(m.currentImage)
    requires m.currentImage.value !in GetSortedCaptures(fs)
    ensures var caps := SortedCaptures(fs);
      var newer := match Stat(fs, m.currentImage.value) case Some(t) => Finite(t) case None => Infinity;
      var next := GetNextImage(m, fs);
      && (next.None? <==> forall k :: 0 <= k < |caps| ==> !Exceeds(caps[k].mtime, newer))
      && (next.Some? ==> exists j :: EarliestNewer(caps, newer, j) && next == Some(caps[j].path))
  {
    var caps := SortedCaptures(fs);
    var newer := match Stat(fs, m.currentImage.value) case Some(t) => Finite(t) case None => Infinity;
    var next := GetNextImage(m, fs);
    if caps != [] {
      assert GetSortedCaptures(fs) != [];
      assert next == ScanNewer(caps, newer, None);
      ScanNewerFindsEarliestNewer(caps, newer, None);
      var last := caps[|caps| - 1];
      if !Exceeds(last.mtime, newer) {
        forall k | 0 <= k < |caps|
          ensures !Exceeds(caps[k].mtime, newer)
        {
          assert caps[k].mtime <= last.mtime;
        }
      }
    }
  }

  /** A current image that no longer exists has no neighbours when no capture predates the epoch. */
  lemma MissingCurrentHasNoNeighbours(m: Manager, fs: FileSystem)
    requires Truthy(m.currentImage)
    requires Stat(fs, m.currentImage.value).None?
    requires forall k :: 0 <= k < |SortedCaptures(fs)| ==> SortedCaptures(fs)[k].mtime >= 0
    ensures GetPreviousImage(m, fs) == None
    ensures GetNextImage(m, fs) == None
  {
    if m.currentImage.value in GetSortedCaptures(fs) {
      ListedPathExists(fs, m.currentImage.value);
    }
    StaleNeighbours(m, fs);
  }

  /**
   * Except for a stale current image, an enabled flag means the matching query
   * yields an image, and a disabled flag means it yields none.
   */
  lemma FlagsAgreeWithNeighbours(m: Manager, fs: FileSystem, arg: Option<string>)
    ensures var (m', state) := GetNavigationState(m, fs, arg);
      (state.currentIndex.Some? || !Truthy(m'.currentImage) || GetSortedCaptures(fs) == []) ==>
        && (state.prevEnabled <==> GetPreviousImage(m', fs).Some?)
        && (state.nextEnabled <==> GetNextImage(m', fs).Some?)
  {
  }

  /**
   * A current image that no longer exists enables both navigation buttons while both
   * queries yield nothing, as long as no capture predates the epoch.
   */
  lemma MissingCurrentEnablesDeadButtons(m: Manager, fs: FileSystem)
    requires Truthy(m.currentImage) && Stat(fs, m.currentImage.value).None?
    requires |GetSortedCaptures(fs)| > 0
    requires forall k :: 0 <= k < |SortedCaptures(fs)| ==> SortedCaptures(fs)[k].mtime >= 0
    ensures var (m', state) := GetNavigationState(m, fs, None);
      && state.prevEnabled && state.nextEnabled
      && GetPreviousImage(m', fs) == None && GetNextImage(m', fs) == None
  {
    UnplacedState(m, fs, None);
    MissingCurrentHasNoNeighbours(m, fs);
  }
}

=== FILE: navigation_sort.dfy ===
/**
 * The ordered view of the capture directory that `NavigationManager.get_sorted_captures`
 * derives: image files of the directory, stably sorted by modification time.
 */
module CaptureOrder {
  import opened Wrappers
  import opened Strings
  import Paths

  /** One name returned by `os.listdir`, with what `os.path.isfile` and `os.path.getmtime` report for it. */
  datatype Entry = Entry(name: string, isFile: bool, mtime: int)

  /**
   * The file system as one query sees it: the capture directory's path, its listing in
   * `os.listdir` order (None when the directory does not exist), and the modification
   * times of existing paths outside that listing.
   */
  datatype FileSystem = FileSystem(dir: string, listing: Option<seq<Entry>>, elsewhere: map<string, int>)

  predicate SimpleNames(es: seq<Entry>) {
    forall i :: 0 <= i < |es| ==> es[i].name != "" && Paths.NoSep(es[i].name)
  }

  predicate DistinctNames(es: seq<Entry>) {
    forall i, j :: 0 <= i < j < |es| ==> es[i].name != es[j].name
  }

  /** What the operating system guarantees of a listing: non-empty, separator-free, distinct names. */
  predicate WellFormed(fs: FileSystem) {
    fs.listing.Some? ==> SimpleNames(fs.listing.value) && DistinctNames(fs.listing.value)
  }

  /** The modification time of the first listed entry whose joined path is `p`. */
  function Lookup(dir: string, es: seq<Entry>, p: string): (r: Option<int>)
    ensures r.None? <==> forall i :: 0 <= i < |es| ==> Paths.Join(dir, es[i].name) != p
    ensures r.Some? ==> exists i :: 0 <= i < |es| && Paths.Join(dir, es[i].name) == p && r.value == es[i].mtime
  {
    if es == [] then None
    else if Paths.Join(dir, es[0].name) == p then Some(es[0].mtime)
    else Lookup(dir, es[1..], p)
  }

  /** `os.path.getmtime(p)` when `os.path.exists(p)`, None otherwise. */
  function Stat(fs: FileSystem, p: string): Option<int> {
    var inListing := if fs.listing.Some? then Lookup(fs.dir, fs.listing.value, p) else None;
    if inListing.Some? then inListing
    else if p in fs.elsewhere then Some(fs.elsewhere[p])
    else None
  }

  /** The extension test `filename.lower().endswith(('.png', '.jpg', '.jpeg', '.bmp'))`. */
  predicate HasImageExtension(name: string) {
    var l := Lower(name);
    EndsWith(l, ".png") || EndsWith(l, ".jpg") || EndsWith(l, ".jpeg") || EndsWith(l, ".bmp")
  }

  /** A listed entry the navigation considers: an image name that is a regular file. */
  predicate IsImage(e: Entry) {
    HasImageExtension(e.name) && e.isFile
  }

  /** `p` is the joined path of a listed image entry of an existing capture directory. */
  predicate IsListedImage(fs: FileSystem, p: string) {
    && fs.listing.Some?
    && exists i :: 0 <= i < |fs.listing.value| && IsImage(fs.listing.value[i])
                   && p == Paths.Join(fs.dir, fs.listing.value[i].name)
  }

  /** An image file of the capture directory: its joined path and its modification time. */
  datatype Capture = Capture(path: string, mtime: int)

  function CaptureOf(dir: string, e: Entry): Capture {
    Capture(Paths.Join(dir, e.name), e.mtime)
  }

  /** The images of a listing, in listing order. */
  function Select(dir: string, es: seq<Entry>): (r: seq<Capture>)
    ensures |r| <= |es|
  {
    if es == [] then []
    else (if IsImage(es[0]) then [CaptureOf(dir, es[0])] else []) + Select(dir, es[1..])
  }

  /** A capture is selected exactly when it is the capture of a listed image entry. */
  lemma {:induction false} SelectMembers(dir: string, es: seq<Entry>, c: Capture)
    ensures c in Select(dir, es) <==> exists i :: 0 <= i < |es| && IsImage(es[i]) && c == CaptureOf(dir, es[i])
  {
    if es != [] {
      SelectMembers(dir, es[1..], c);
      var head := if IsImage(es[0]) then [CaptureOf(dir, es[0])] else [];
      assert Select(dir, es) == head + Select(dir, es[1..]);
      assert c in Select(dir, es) <==> c in head || c in Select(dir, es[1..]);
      if c in Select(dir, es[1..]) {
        var i :| 0 <= i < |es[1..]| && IsImage(es[1..][i]) && c == CaptureOf(dir, es[1..][i]);
        assert es[i + 1] == es[1..][i];
      }
      if exists i :: 0 <= i < |es| && IsImage(es[i]) && c == CaptureOf(dir, es[i]) {
        var i :| 0 <= i < |es| && IsImage(es[i]) && c == CaptureOf(dir, es[i]);
        if i > 0 {
          assert es[1..][i - 1] == es[i];
        }
      }
    }
  }

  /** The images of the capture directory before sorting; none when it does not exist. */
  function Candidates(fs: FileSystem): seq<Capture> {
    if fs.listing.None? then [] else Select(fs.dir, fs.listing.value)
  }

  predicate SortedByMtime(s: seq<Capture>) {
    forall i, j :: 0 <= i < j < |s| ==> s[i].mtime <= s[j].mtime
  }

  /** The subsequence of `s` whose modification time is `t`, in order. */
  function WithMtime(s: seq<Capture>, t: int): seq<Capture> {
    if s == [] then []
    else WithMtime(s[..|s| - 1], t) + (if s[|s| - 1].mtime == t then [s[|s| - 1]] else [])
  }

  lemma WithMtimeAppend(s: seq<Capture>, c: Capture, t: int)
    ensures WithMtime(s + [c], t) == WithMtime(s, t) + (if c.mtime == t then [c] else [])
  {
    assert (s + [c])[..|s + [c]| - 1] == s;
  }

  /**
   * Insertion of `c` into a sequence after the trailing elements whose time is later;
   * on a sorted sequence it lands after every element whose time is not later,
   * which is where stability comes from.
   */
  function Insert(s: seq<Capture>, c: Capture): (r: seq<Capture>)
    ensures |r| == |s| + 1
    ensures multiset(r) == multiset(s) + multiset{c}
  {
    if s == [] || s[|s| - 1].mtime <= c.mtime then s + [c]
    else
      assert s == s[..|s| - 1] + [s[|s| - 1]];
      Insert(s[..|s| - 1], c) + [s[|s| - 1]]
  }

  lemma {:induction false} InsertSorted(s: seq<Capture>, c: Capture)
    requires SortedByMtime(s)
    ensures SortedByMtime(Insert(s, c))
  {
    if s == [] || s[|s| - 1].mtime <= c.mtime {
    } else {
      var init, last := s[..|s| - 1], s[|s| - 1];
      assert s == init + [last];
      InsertSorted(init, c);
      var r' := Insert(init, c);
      forall i | 0 <= i < |r'|
        ensures r'[i].mtime <= last.mtime
      {
        assert r'[i] in multiset(r');
        if r'[i] != c {
          assert r'[i] in multiset(init);
          var k :| 0 <= k < |init| && init[k] == r'[i];
          assert s[k] == init[k];
        }
      }
    }
  }

  lemma {:induction false} InsertWithMtime(s: seq<Capture>, c: Capture, t: int)
    requires SortedByMtime(s)
    ensures WithMtime(Insert(s, c), t) == WithMtime(s, t) + (if c.mtime == t then [c] else [])
  {
    if s == [] || s[|s| - 1].mtime <= c.mtime {
      WithMtimeAppend(s, c, t);
    } else {
      var init, last := s[..|s| - 1], s[|s| - 1];
      assert s == init + [last];
      InsertWithMtime(init, c, t);
      WithMtimeAppend(Insert(init, c), last, t);
      WithMtimeAppend(init, last, t);
    }
  }

  /**
   * A stable sort by modification time, like Python's `list.sort(key=getmtime)`:
   * the result is ordered, is a permutation of the input, and entries of equal
   * time keep their input order.
   */
  function SortByMtime(s: seq<Capture>): (r: seq<Capture>)
    ensures |r| == |s|
    ensures SortedByMtime(r)
    ensures multiset(r) == multiset(s)
    ensures forall t :: WithMtime(r, t) == WithMtime(s, t)
  {
    if s == [] then []
    else
      var init, last := s[..|s| - 1], s[|s| - 1];
      assert s == init + [last];
      var sortedInit := SortByMtime(init);
      InsertSorted(sortedInit, last);
      assert forall t :: WithMtime(Insert(sortedInit, last), t) == WithMtime(s, t) by {
        forall t ensures WithMtime(Insert(sortedInit, last), t) == WithMtime(s, t) {
          InsertWithMtime(sortedInit, last, t);
          WithMtimeAppend(init, last, t);
        }
      }
      Insert(sortedInit, last)
  }

  /**
   * The sorted and stable arrangement is unique: any stable sort by modification
   * time (Python's Timsort included) produces exactly `SortByMtime`.
   */
  lemma {:induction false} StableSortUnique(s: seq<Capture>, r: seq<Capture>)
    requires SortedByMtime(r)
    requires forall t :: WithMtime(r, t) == WithMtime(s, t)
    ensures r == SortByMtime(s)
  {
    StableArrangementUnique(r, SortByMtime(s));
  }

  /** A time class holds only elements of the sequence that have that time. */
  lemma {:induction false} WithMtimeMembers(s: seq<Capture>, t: int, c: Capture)
    requires c in WithMtime(s, t)
    ensures c in s && c.mtime == t
  {
    if s != [] {
      var init, last := s[..|s| - 1], s[|s| - 1];
      assert s == init + [last];
      if c in WithMtime(init, t) {
        WithMtimeMembers(init, t, c);
      }
    }
  }

  /** The last element of a non-empty sequence ends its own time class. */
  lemma LastInItsClass(s: seq<Capture>)
    requires s != []
    ensures WithMtime(s, s[|s| - 1].mtime) == WithMtime(s[..|s| - 1], s[|s| - 1].mtime) + [s[|s| - 1]]
  {
  }

  /** In a sorted sequence, the last element's time bounds every member of every class. */
  lemma LastIsLatest(s: seq<Capture>, t: int)
    requires s != [] && SortedByMtime(s)
    requires WithMtime(s, t) != []
    ensures t <= s[|s| - 1].mtime
  {
    var x := WithMtime(s, t)[0];
    WithMtimeMembers(s, t, x);
    var k :| 0 <= k < |s| && s[k] == x;
  }

  lemma {:induction false} StableArrangementUnique(a: seq<Capture>, b: seq<Capture>)
    requires SortedByMtime(a) && SortedByMtime(b)
    requires forall t :: WithMtime(a, t) == WithMtime(b, t)
    ensures a == b
    decreases |a| + |b|
  {
    if a == [] && b == [] {
    } else if a == [] {
      LastInItsClass(b);
    } else if b == [] {
      LastInItsClass(a);
    } else {
      var a', x := a[..|a| - 1], a[|a| - 1];
      var b', y := b[..|b| - 1], b[|b| - 1];
      LastInItsClass(a);
      LastInItsClass(b);
      LastIsLatest(b, x.mtime);
      LastIsLatest(a, y.mtime);
      var m := x.mtime;
      assert y.mtime == m;
      var la, lb := WithMtime(a', m) + [x], WithMtime(b', m) + [y];
      assert la == WithMtime(a, m) == WithMtime(b, m) == lb;
      assert x == la[|la| - 1] == lb[|lb| - 1] == y;
      assert WithMtime(a', m) == la[..|la| - 1] == lb[..|lb| - 1] == WithMtime(b', m);
      assert a' + [x] == a;
      assert b' + [y] == b;
      forall t | t != m
        ensures WithMtime(a', t) == WithMtime(b', t)
      {
        WithMtimeAppend(a', x, t);
        WithMtimeAppend(b', y, t);
        assert WithMtime(a', t) + [] == WithMtime(a', t);
        assert WithMtime(b', t) + [] == WithMtime(b', t);
        assert WithMtime(a, t) == WithMtime(b, t);
      }
      StableArrangementUnique(a', b');
      assert a == a' + [x];
      assert b == b' + [y];
    }
  }

  /** The capture directory's images in navigation order. */
  function SortedCaptures(fs: FileSystem): seq<Capture> {
    SortByMtime(Candidates(fs))
  }

  function PathsOf(s: seq<Capture>): (r: seq<string>)
    ensures |r| == |s|
    ensures forall i :: 0 <= i < |s| ==> r[i] == s[i].path
  {
    if s == [] then [] else [s[0].path] + PathsOf(s[1..])
  }

  /** `get_sorted_captures()`: the paths of the capture directory's images, oldest first. */
  function GetSortedCaptures(fs: FileSystem): (r: seq<string>)
    ensures fs.listing.None? ==> r == []
    ensures |r| == |Candidates(fs)|
  {
    PathsOf(SortedCaptures(fs))
  }

  /**
   * The sorted list holds exactly the joined paths of the listed entries whose name has an
   * image extension and which are regular files.
   */
  lemma SortedCapturesMembers(fs: FileSystem, p: string)
    ensures p in GetSortedCaptures(fs) <==> IsListedImage(fs, p)
  {
    var caps := SortedCaptures(fs);
    var r := GetSortedCaptures(fs);
    if p in r {
      var k :| 0 <= k < |r| && r[k] == p;
      var c := caps[k];
      assert c in multiset(Candidates(fs));
      SelectMembers(fs.dir, fs.listing.value, c);
    }
    if IsListedImage(fs, p) {
      var es := fs.listing.value;
      var i :| 0 <= i < |es| && IsImage(es[i]) && p == Paths.Join(fs.dir, es[i].name);
      var c := CaptureOf(fs.dir, es[i]);
      SelectMembers(fs.dir, es, c);
      assert c in multiset(caps);
      var k :| 0 <= k < |caps| && caps[k] == c;
      assert r[k] == p;
    }
  }

  lemma NameOfCapture(dir: string, e1: Entry, e2: Entry)
    requires Paths.NoSep(e1.name) && Paths.NoSep(e2.name)
    requires CaptureOf(dir, e1).path == CaptureOf(dir, e2).path
    ensures e1.name == e2.name
  {
    Paths.BasenameOfJoin(dir, e1.name);
    Paths.BasenameOfJoin(dir, e2.name);
  }

  /** In a well-formed listing, the entry behind a candidate is unique. */
  lemma {:induction false} SelectOnce(dir: string, es: seq<Entry>, c: Capture)
    requires SimpleNames(es) && DistinctNames(es)
    ensures multiset(Select(dir, es))[c] <= 1
  {
    if es != [] {
      var tail := es[1..];
      assert SimpleNames(tail) && DistinctNames(tail) by {
        forall i | 0 <= i < |tail| ensures tail[i] == es[i + 1] { }
      }
      SelectOnce(dir, tail, c);
      if IsImage(es[0]) && c == CaptureOf(dir, es[0]) {
        SelectMembers(dir, tail, c);
        if c in Select(dir, tail) {
          var i :| 0 <= i < |tail| && IsImage(tail[i]) && c == CaptureOf(dir, tail[i]);
          assert tail[i] == es[i + 1];
          NameOfCapture(dir, es[0], es[i + 1]);
          assert false;
        }
      }
    }
  }

  /** In a well-formed listing, two candidates with the same path are the same capture. */
  lemma SamePathSameCapture(fs: FileSystem, c1: Capture, c2: Capture)
    requires WellFormed(fs)
    requires c1 in Candidates(fs) && c2 in Candidates(fs) && c1.path == c2.path
    ensures c1 == c2
  {
    var es := fs.listing.value;
    SelectMembers(fs.dir, es, c1);
    SelectMembers(fs.dir, es, c2);
    var i1 :| 0 <= i1 < |es| && IsImage(es[i1]) && c1 == CaptureOf(fs.dir, es[i1]);
    var i2 :| 0 <= i2 < |es| && IsImage(es[i2]) && c2 == CaptureOf(fs.dir, es[i2]);
    NameOfCapture(fs.dir, es[i1], es[i2]);
  }

  lemma TwiceCounted(s: seq<Capture>, i: nat, j: nat)
    requires i < j < |s| && s[i] == s[j]
    ensures multiset(s)[s[i]] >= 2
  {
    assert s == s[..i] + [s[i]] + s[i + 1..j] + [s[j]] + s[j + 1..];
  }

  /** In a well-formed listing, every image appears once in the sorted list. */
  lemma SortedPathsDistinct(fs: FileSystem)
    requires WellFormed(fs)
    ensures forall i, j :: 0 <= i < j < |GetSortedCaptures(fs)| ==> GetSortedCaptures(fs)[i] != GetSortedCaptures(fs)[j]
  {
    var caps := SortedCaptures(fs);
    var r := GetSortedCaptures(fs);
    forall i, j | 0 <= i < j < |r|
      ensures r[i] != r[j]
    {
      if r[i] == r[j] {
        assert caps[i] in multiset(Candidates(fs));
        assert caps[j] in multiset(Candidates(fs));
        SamePathSameCapture(fs, caps[i], caps[j]);
        TwiceCounted(caps, i, j);
        SelectOnce(fs.dir, fs.listing.value, caps[i]);
        assert false;
      }
    }
  }

  /** In a well-formed listing, the sort key of a capture is what `os.path.getmtime` reports for its path. */
  lemma CaptureMtimeIsStat(fs: FileSystem, c: Capture)
    requires WellFormed(fs)
    requires c in SortedCaptures(fs)
    ensures Stat(fs, c.path) == Some(c.mtime)
  {
    assert c in multiset(Candidates(fs));
    assert fs.listing.Some?;
    var es := fs.listing.value;
    SelectMembers(fs.dir, es, c);
    var i :| 0 <= i < |es| && IsImage(es[i]) && c == CaptureOf(fs.dir, es[i]);
    var found := Lookup(fs.dir, es, c.path);
    assert found.Some?;
    assert Stat(fs, c.path) == found;
    var j :| 0 <= j < |es| && Paths.Join(fs.dir, es[j].name) == c.path && found.value == es[j].mtime;
    NameOfCapture(fs.dir, es[i], es[j]);
    assert i == j by {
      assert DistinctNames(es);
    }
  }
}

=== FILE: paths.dfy ===
/**
 * POSIX path manipulation as Python's `posixpath` module performs it
 * (`os.path.join`, `basename`, `dirname`, `splitext`).
 */
module Paths {

  const Sep: char := '/'

  predicate NoSep(s: string) {
    forall i :: 0 <= i < |s| ==> s[i] != Sep
  }

  predicate AllSeps(s: string) {
    forall i :: 0 <= i < |s| ==> s[i] == Sep
  }

  /** The index just past the last occurrence of `c` in `s`, or 0 when `c` does not occur. */
  function AfterLast(s: string, c: char): (k: nat)
    ensures k <= |s|
    ensures k == 0 || s[k - 1] == c
    ensures forall i :: k <= i < |s| ==> s[i] != c
  {
    if s == [] then 0 else if s[|s| - 1] == c then |s| else AfterLast(s[..|s| - 1], c)
  }

  /** `os.path.join(a, b)`: an absolute `b` replaces `a`; otherwise one separator is inserted if needed. */
  function Join(a: string, b: string): string {
    if |b| > 0 && b[0] == Sep then b
    else if a == [] || a[|a| - 1] == Sep then a + b
    else a + [Sep] + b
  }

  /** `os.path.basename(p)`: everything after the last separator. */
  function Basename(p: string): (b: string)
    ensures NoSep(b)
    ensures |b| <= |p| && p[|p| - |b|..] == b
  {
    p[AfterLast(p, Sep)..]
  }

  /** `s` without its trailing separators. */
  function RStripSeps(s: string): (r: string)
    ensures r <= s
    ensures r == [] || r[|r| - 1] != Sep
    ensures AllSeps(s[|r|..])
  {
    if s == [] || s[|s| - 1] != Sep then s else RStripSeps(s[..|s| - 1])
  }

  /**
   * `os.path.dirname(p)`: everything up to the last separator, with trailing
   * separators removed unless the head consists of separators only.
   */
  function Dirname(p: string): (d: string)
    ensures d <= p
    ensures d == [] || AllSeps(d) || d[|d| - 1] != Sep
  {
    var head := p[..AfterLast(p, Sep)];
    if head != [] && !AllSeps(head) then RStripSeps(head) else head
  }

  predicate AllDots(s: string) {
    forall i :: 0 <= i < |s| ==> s[i] == '.'
  }

  /**
   * `os.path.splitext(p)`: the extension starts at the last dot of the last
   * path component, unless only dots precede it in that component.
   */
  function SplitExt(p: string): (r: (string, string))
    ensures r.0 + r.1 == p
    ensures r.1 == [] || (r.1[0] == '.' && NoSep(r.1) && forall i :: 1 <= i < |r.1| ==> r.1[i] != '.')
  {
    var afterSep := AfterLast(p, Sep);
    var afterDot := AfterLast(p, '.');
    if afterDot > afterSep && !AllDots(p[afterSep..afterDot - 1]) then
      (p[..afterDot - 1], p[afterDot - 1..])
    else
      (p, [])
  }

  lemma {:induction false} AfterLastOfAppend(x: string, y: string, c: char)
    requires x != [] && x[|x| - 1] == c
    requires forall i :: 0 <= i < |y| ==> y[i] != c
    ensures AfterLast(x + y, c) == |x|
    decreases |y|
  {
    if y == [] {
      assert x + y == x;
    } else {
      assert (x + y)[..|x + y| - 1] == x + y[..|y| - 1];
      AfterLastOfAppend(x, y[..|y| - 1], c);
    }
  }

  lemma AfterLastAbsent(y: string, c: char)
    requires forall i :: 0 <= i < |y| ==> y[i] != c
    ensures AfterLast(y, c) == 0
  {
  }

  /** Joining a directory with a separator-free name yields a path whose base name is that name. */
  lemma BasenameOfJoin(d: string, n: string)
    requires NoSep(n)
    ensures Basename(Join(d, n)) == n
  {
    var j := Join(d, n);
    if d == [] {
      AfterLastAbsent(n, Sep);
    } else if d[|d| - 1] == Sep {
      AfterLastOfAppend(d, n, Sep);
    } else {
      assert j == (d + [Sep]) + n;
      AfterLastOfAppend(d + [Sep], n, Sep);
    }
  }

  /** Joining a directory name with a separator-free name and taking the directory back gives the same directory. */
  lemma DirnameOfJoin(p: string, n: string)
    requires NoSep(n)
    ensures Dirname(Join(Dirname(p), n)) == Dirname(p)
  {
    var d := Dirname(p);
    var j := Join(d, n);
    if d == [] {
      AfterLastAbsent(n, Sep);
      assert j[..AfterLast(j, Sep)] == [];
    } else if AllSeps(d) {
      AfterLastOfAppend(d, n, Sep);
      assert j[..AfterLast(j, Sep)] == d;
    } else {
      assert j == (d + [Sep]) + n;
      AfterLastOfAppend(d + [Sep], n, Sep);
      var head := j[..AfterLast(j, Sep)];
      assert head == d + [Sep];
      assert !AllSeps(head) by {
        assert head[|d| - 1] != Sep;
      }
      assert RStripSeps(head) == RStripSeps(d) == d;
    }
  }

  lemma NoSepAppend(a: string, b: string)
    requires NoSep(a) && NoSep(b)
    ensures NoSep(a + b)
  {
  }

  /** A stem that is not all dots followed by an extension splits back into the two. */
  lemma SplitExtOfAppend(stem: string, ext: string)
    requires NoSep(stem) && !AllDots(stem)
    requires ext != [] && ext[0] == '.' && NoSep(ext)
    requires forall i :: 1 <= i < |ext| ==> ext[i] != '.'
    ensures SplitExt(stem + ext) == (stem, ext)
  {
    var p := stem + ext;
    NoSepAppend(stem, ext);
    AfterLastAbsent(p, Sep);
    assert p == (stem + ['.']) + ext[1..];
    AfterLastOfAppend(stem + ['.'], ext[1..], '.');
    assert p[0..|stem|] == stem;
  }
}

=== FILE: strings.dfy ===
/** The few `str` operations of Python the application relies on. */
module Strings {
  import opened Wrappers

  /** Python's `str.isspace` for one character: the characters `str.rstrip()` removes. */
  predicate IsSpace(c: char) {
    || c == ' ' || c == '\t' || c == '\n' || c == '\r' || c == '\U{000B}' || c == '\U{000C}'
    || ('\U{001C}' <= c <= '\U{001F}')
    || c == '\U{0085}' || c == '\U{00A0}' || c == '\U{1680}'
    || ('\U{2000}' <= c <= '\U{200A}')
    || c == '\U{2028}' || c == '\U{2029}' || c == '\U{202F}' || c == '\U{205F}' || c == '\U{3000}'
  }

  /** Python's `s.rstrip()`: the longest prefix of `s` that does not end in whitespace. */
  function RStrip(s: string): (r: string)
    ensures r <= s
    ensures r == [] || !IsSpace(r[|r| - 1])
    ensures forall i :: |r| <= i < |s| ==> IsSpace(s[i])
  {
    if s == [] || !IsSpace(s[|s| - 1]) then s else RStrip(s[..|s| - 1])
  }

  /** Stripping twice strips nothing more. */
  lemma RStripIdempotent(s: string)
    ensures RStrip(RStrip(s)) == RStrip(s)
  {
  }

  /** Python's truth value of an optional string: `None` and `""` are false. */
  predicate Truthy(o: Option<string>) {
    o.Some? && o.value != ""
  }

  /** Python's `str.lower` restricted to ASCII letters; other characters are kept. */
  function LowerChar(c: char): (r: char)
    ensures 'A' <= c <= 'Z' ==> 'a' <= r <= 'z' && r as int - c as int == 32
    ensures !('A' <= c <= 'Z') ==> r == c
  {
    if 'A' <= c <= 'Z' then (c as int + 32) as char else c
  }

  function Lower(s: string): (r: string)
    ensures |r| == |s|
    ensures forall i :: 0 <= i < |s| ==> r[i] == LowerChar(s[i])
  {
    if s == [] then [] else Lower(s[..|s| - 1]) + [LowerChar(s[|s| - 1])]
  }

  /** Python's `s.endswith(suffix)`. */
  predicate EndsWith(s: string, suffix: string) {
    |suffix| <= |s| && s[|s| - |suffix|..] == suffix
  }

  /** Python's `sep.join(parts)`. */
  function JoinWith(parts: seq<string>, sep: string): (r: string)
    ensures parts == [] ==> r == ""
    ensures |parts| == 1 ==> r == parts[0]
  {
    if parts == [] then ""
    else if |parts| == 1 then parts[0]
    else parts[0] + sep + JoinWith(parts[1..], sep)
  }

  /** Reads the literal `lit` off the front of `s`, giving what follows it. */
  function ReadLiteral(s: string, lit: string): Option<string> {
    if lit <= s then Some(s[|lit|..]) else None
  }

  lemma ReadLiteralOf(lit: string, rest: string)
    ensures ReadLiteral(lit + rest, lit) == Some(rest)
  {
    assert (lit + rest)[..|lit|] == lit;
    assert (lit + rest)[|lit|..] == rest;
  }

  lemma EndsWithAppend(a: string, b: string, suffix: string)
    requires EndsWith(b, suffix)
    ensures EndsWith(a + b, suffix)
  {
    assert (a + b)[|a + b| - |suffix|..] == b[|b| - |suffix|..];
  }

  /** Lowering keeps a suffix that lowering does not change. */
  lemma LowerKeepsSuffix(s: string, suffix: string)
    requires EndsWith(s, suffix) && Lower(suffix) == suffix
    ensures EndsWith(Lower(s), suffix)
  {
    var l := Lower(s);
    var k := |s| - |suffix|;
    forall i | 0 <= i < |suffix|
      ensures l[k..][i] == suffix[i]
    {
      assert s[k..][i] == s[k + i];
      assert Lower(suffix)[i] == LowerChar(suffix[i]);
    }
  }
}

=== FILE: wrappers.dfy ===
/** Failure-compatible datatypes shared by the whole model. */
module Wrappers {

  /** Python's `None` or a value. */
  datatype Option<+T> = None | Some(value: T) {

    /** Returns the value held in Some or the given default. */
    function GetOr(default: T): T {
      match this
      case Some(v) => v
      case None => default
    }

    predicate IsFailure() {
      None?
    }

    function PropagateFailure<U>(): Option<U>
      requires None?
    {
      None
    }

    function Extract(): T
      requires Some?
    {
      value
    }
  }

  /** A normal return carrying a value, or a raised exception carrying its message. */
  datatype Result<+R, +E> = Success(value: R) | Failure(error: E)
}
